=== FILE: README.md ===
# Ensō music player — a Dafny model of its looping core

Ensō plays a music track as an intro followed by an endlessly repeated loop
region, without a gap at the loop boundary. This project models the core of
that engine in Dafny and proves properties of the model:

- **MusicTrack** (`music_track.dfy`) models how a track resolves its loop
  points:
  - a positive designer override wins;
  - otherwise a value already loaded from metadata is used;
  - otherwise the `LOOPSTART` or `LOOPLENGTH` tag is read, at most once.

  It also models how `CreateAndCacheClips` cuts the clip's interleaved sample
  buffer into an intro clip and a loop clip, and it covers `FrequencyRatio`,
  `LengthInSamples`, `LengthInSeconds`, `SamplesToSeconds` and
  `SecondsToSamples`.
- **EnsoHelpers** (`helpers.dfy`) holds `Slice` in two forms:
  - a reference definition on sequences;
  - the array copy as a loop, proved equal to the reference.

  It also holds the equal-power crossfade curve, with the cosine as a
  parameter.
- **Speaker** (`speaker.dfy`) models the two audio voices of a speaker module
  and the scheduling arithmetic between them:
  - `Play` schedules the first voice up to the loop end.
  - Each `Update` re-arms the idle partner voice at the loop start sample, so
    that it starts when the playing voice ends.

  The gapless hand-off is proved for any number of loop iterations.
- **SpeakerModule** (`speaker_module.dfy`, Core variant) holds the playing
  flag and the linear fade machine. Each frame it counts the time left down,
  ramps the volume, and snaps to the end volume when the fade completes. A
  fade-out may stop the module when it is done.
- **LegacySpeakerModule** (`legacy_speaker_module.dfy`, the root
  `SpeakerModule.cs`) is the same machine, except that the fade target is read
  live from the player's `Volume` on every frame.
- **MusicPlayer** (`music_player.dfy`, Core variant) is the orchestration
  layer: two modules and a marker for the current one, track lookup by name, a volume
  that cannot change while fading, `PlayTrack`, and `CrossFadeToTrack`.
- **LegacyMusicPlayer** (`legacy_music_player.dfy`, the root `MusicPlayer.cs`)
  differs from the Core player in these ways:
  - `SetVolume` only stores the value, and the next `Update` pushes it to the
    modules.
  - The only `PlayTrack` takes a name, and it does not set the module's
    volume first. There is no overload taking a track.
  - `Start` never tells the modules the player's volume.
  - `Start` does not cut the tracks' clips, unlike Core's `Awake`
    (Core/MusicPlayer.cs:39-45). A root track therefore reads its loop tags
    lazily, on its first `Speaker.Play` (Core/Speaker.cs:97-98 through
    `AbsoluteLoopEnd` and the `LoopStart` getter), and a bad tag throws there.
    The model gives both players playlist entries with resolved loop points,
    so that exception path is listed under "## Left out".
- **Errors** (`errors.dfy`) holds the .NET exceptions the code can raise, plus
  `Result` and `Option`.

The model uses these conventions:

- State is an immutable record, and each operation is a pure function from
  the old state to the new one.
- A getter that caches returns a `Got`: the answer, the track afterwards, and
  the tags it read.
- A command that may throw returns a `Step` with the state as the exception
  leaves it.
- The audio clock, `AudioSource.time` and `Time.deltaTime` are parameters.
- Audio floats are `real`.
- `Convert.ToInt32` is rounding half to even.

Some facts about the code that shape the model:

- The module fades are **linear** ramps (Core/SpeakerModule.cs:73 and :90).
  The equal-power helper in EnsoHelpers is never called.
- `Core/MusicPlayer.cs` declares its modules with the type `Speaker`, yet it
  calls speaker-module members on them (`SetPlayerVolume`, `FadeOut`, `Play`
  with a track). The model treats them as speaker modules.
- A crossfade to an unknown track name is not atomic. The outgoing module has
  already started its fade-out and the current module has already switched when
  `KeyNotFoundException` is thrown.
- `PlayTrack(MusicTrack)` does not record the player's playing track. Only
  `PlayTrack(string)` does.
- Loop counts, scrubbing, pause positions and loop/end events are not in this
  revision of the code.
- Every fade a command starts has its time left equal to its duration. So
  every player state the commands reach satisfies `MusicPlayer.Player.Valid`,
  which is the fade invariant of both modules that a frame's `Tick` requires.

## Model

| member | source | states |
|---|---|---|
| EnsoHelpers.SliceFailure | Core/EnsoHelpers.cs:7-12 | a request that does not fit raises OverflowException for a negative length, else ArgumentOutOfRangeException for a negative offset, else ArgumentException for a source too short — each exactly in its case |
| EnsoHelpers.Slice | Core/EnsoHelpers.cs:7-12 | succeeds iff offset and length are non-negative and the range ends inside the source; the result has `length` elements, the i-th being source[offset + i]; otherwise the matching exception |
| EnsoHelpers.SliceArray | Core/EnsoHelpers.cs:7-12 | the element-by-element array copy succeeds under the same condition; the result is a newly allocated array of `length` elements equal to the source's from `offset`, and agrees with the reference Slice |
| EnsoHelpers.CrossfadePhase | Core/EnsoHelpers.cs:14-25 | the phase is the percentage when fading in and its complement to 1 when fading out |
| EnsoHelpers.EqualPowerSymmetry | Core/EnsoHelpers.cs:14-27 | fading in at p gives the same gain as fading out at 1 - p and vice versa, for any cosine |
| EnsoHelpers.EqualPowerEndpoints | Core/EnsoHelpers.cs:14-27 | with cos 0 = 1 and cos(pi/2) = 0 the fading-in gain goes from 1 at 0 to 0 at 1 and the other way round when not fading in |
| MusicTrack.NewTrack | Core/MusicTrack.cs:17-32 | a new track has no overrides and nothing loaded, so neither loop point is resolved, compensates for frequency, and has no clips |
| MusicTrack.GetLoopStart | Core/MusicTrack.cs:34-65 | reads the LOOPSTART tag exactly when the loop start is not yet resolved, and then answers 0 for a missing tag or int.Parse of the tag (its value, OverflowException outside Int32, FormatException for a non-numeral); afterwards it is resolved and the answer is the cached value; a resolved track is returned unchanged; an exception iff the tag is read and fails to parse; only the loop-start cache changes |
| MusicTrack.GetLoopLength | Core/MusicTrack.cs:73-104 | reads LOOPLENGTH exactly when the length is unresolved, and LOOPSTART too exactly when that tag is missing and the start is unresolved; a present tag gives int.Parse of it, a missing one samples - min(samples, LoopStart); an exception iff the tag fails to parse or is missing and LoopStart throws, and then LoopStart's exception; afterwards the length is resolved and answered from the cache; a resolved start keeps its value; only the two caches change |
| MusicTrack.SetLoopStart | Core/MusicTrack.cs:67-70 | the setter writes the override and nothing else |
| MusicTrack.SetLoopLength | Core/MusicTrack.cs:106-109 | the setter writes the override and nothing else |
| MusicTrack.PositiveOverrideWins | Core/MusicTrack.cs:38-41 | a positive override is returned as-is with no metadata read and no state change, whatever the tags hold |
| MusicTrack.TagValueUsed | Core/MusicTrack.cs:48-60 | an unresolved getter returns the tag's value when it fits an Int32; a numeral outside that range raises OverflowException and a non-numeral FormatException, for both loop points |
| MusicTrack.ReadAtMostOnce | Core/MusicTrack.cs:42-63 | a second get reads no tag, leaves the track as the first left it, and repeats a successful first answer |
| MusicTrack.MalformedStartReportedOnce | Core/MusicTrack.cs:48-63 | a LOOPSTART tag that fails to parse raises only once: the next get silently answers the stale non-positive loaded value |
| MusicTrack.MissingTagDefaults | Core/MusicTrack.cs:53-56 | with both tags missing, the loop start is 0 and the loop length is the whole clip |
| MusicTrack.MissingLengthTagFillsTrack | Core/MusicTrack.cs:92-95 | a missing LOOPLENGTH gives the rest of the track after the loop start: non-negative, summing with the start to the track length when the start lies inside it, 0 beyond |
| MusicTrack.FrequencyRatio | Core/MusicTrack.cs:145-162 | 1 when the original frequency is unknown, otherwise the ratio whose product with the original frequency is the clip's frequency |
| MusicTrack.UsedRatio | Core/MusicTrack.cs:264 | the ratio clip creation uses is 1 when compensation is off, when the original frequency is unknown, or when the import kept the frequency; otherwise the clip's frequency over the original one (its product with the original frequency is the clip's frequency) |
| MusicTrack.RoundToInt | Core/MusicTrack.cs:267-271 | the nearest integer to x, within 1/2; integers map to themselves and exact halves to an even integer |
| MusicTrack.SplitOf | Core/MusicTrack.cs:264-293 | at ratio 1 the intro has max(1, LoopStart) frames, the loop min(samples - 1, max(1, LoopLength)) frames starting at max(0, LoopStart) * channels; the loop copy is min(loop frames * channels, buffer length - loop offset), so it never runs past the buffer end nor past the loop clip |
| MusicTrack.UnitRatioSplitBounds | Core/MusicTrack.cs:266-293 | at ratio 1 the loop clip has between 1 and samples - 1 frames, and the loop slice lies inside the buffer whenever the loop start does |
| MusicTrack.ResolveLoopPoints | Core/MusicTrack.cs:267-271 | clip creation's three getter calls succeed iff LoopStart and then LoopLength do, answer the cached loop points, leave both resolved, change only the caches, and never read the same tag twice |
| MusicTrack.CutClips | Core/MusicTrack.cs:273-293 | cutting succeeds iff both slices fit the buffer; the intro clip then holds the buffer's first introLength * channels samples and the loop clip the loop range; only the clips change |
| MusicTrack.CreateAndCacheClips | Core/MusicTrack.cs:258-300 | on success both loop points are resolved, both clips exist with the split's frame counts, and their data are the two slices of the clip's buffer; the cut is made at exactly the loop points the getters resolve, and the tags read are those of that resolution; a getter's exception is rethrown as is; clip, name and overrides are untouched |
| MusicTrack.CreateSucceedsIff | Core/MusicTrack.cs:258-300 | at ratio 1, with loop points that resolve, creation succeeds exactly when max(1, LoopStart) <= samples |
| MusicTrack.CreatedTrackIsResolved | Core/MusicTrack.cs:34-104 | after a successful creation neither getter reads metadata or changes the track again |
| MusicTrack.LengthInSamples | Core/MusicTrack.cs:185-198 | intro frames plus loop frames once both clips exist; NullReferenceException before CreateAndCacheClips |
| MusicTrack.LengthAtUnitRatio | Core/MusicTrack.cs:258-293 | after creation at ratio 1 the length is max(1, LoopStart) + min(samples - 1, max(1, LoopLength)) |
| MusicTrack.SplitCoversTrack | Core/MusicTrack.cs:267-271 | a loop region that is the tail of the track splits it into intro and loop frames that add up to its length |
| MusicTrack.UntaggedTrackLength | Core/MusicTrack.cs:258-300 | a new track whose file has no loop tags is cut successfully into clips whose frames sum to the clip's frame count |
| MusicTrack.SecondsToSamples | Core/MusicTrack.cs:317-320 | never more than LengthInSamples, and the rounded sample count of the time whenever that fits; NullReferenceException when there are no clips |
| MusicTrack.LengthInSeconds | Core/MusicTrack.cs:203-216 | the clips' length in seconds, which times the frequency is LengthInSamples |
| MusicTrack.SamplesToSeconds | Core/MusicTrack.cs:307-310 | never more than LengthInSeconds nor samples / frequency, and equal to one of them |
| Speaker.RelativeLoopStart | Core/Speaker.cs:30-36 | the loop start in seconds: times the frequency it is LoopStart |
| Speaker.LoopSeconds | Core/Speaker.cs:41-47 | the loop length in seconds: times the frequency it is LoopLength |
| Speaker.AbsoluteLoopEnd | Core/Speaker.cs:51-67 | the clock time of the loop end for a start at `now`: (end - now) times the frequency is LoopStart + LoopLength |
| Speaker.Stop | Core/Speaker.cs:113-119 | neither voice plays at any time, both rewind to sample 0, clips and volumes are kept |
| Speaker.Pause | Core/Speaker.cs:101-105 | neither voice plays; only the paused flags change |
| Speaker.UnPause | Core/Speaker.cs:107-111 | neither voice is paused; only the paused flags change |
| Speaker.SetVolume | Core/Speaker.cs:121-124 | this speaker's voice gets the volume; nothing else in it and nothing in the partner changes |
| Speaker.Play | Core/Speaker.cs:90-99 | both voices get the track, this one is scheduled from `now` from sample 0 to the loop end, the partner is stopped and rewound, volumes are kept |
| Speaker.ReArm | Core/Speaker.cs:78-86 | the partner starts at the loop-start sample and its scheduled window lasts exactly one loop |
| Speaker.Update | Core/Speaker.cs:76-88 | this voice is never touched; the partner changes only when the module is playing and the partner is idle, and then it is re-armed |
| Speaker.PlayStartsTimeline | Core/Speaker.cs:90-99 | the voice Play schedules ends at the loop end of its own timeline |
| Speaker.ReArmIsGapless | Core/Speaker.cs:76-88 | if the playing voice is on the loop timeline and reports its source time as on schedule, the re-armed partner starts exactly when it ends and is itself on the timeline |
| Speaker.HandOffsStayOnTimeline | Core/Speaker.cs:76-88 | after any number of hand-offs the active voice is on the loop timeline and starts a whole number of loops after the first voice's end |
| Speaker.PlayThenHandOffs | Core/Speaker.cs:76-99 | the k-th hand-off after a Play at t0 starts at t0 + LoopStart / f + k * LoopLength / f: the intro once, then back-to-back loops |
| SpeakerModule.FadeStep | Core/SpeakerModule.cs:53-94 | one frame keeps the fade invariant and never adds time; a fade-in plays (max - left) / max of the target, a fade-out left / max, both within [0, target]; when time runs out the volume snaps to target (in) or 0 (out), the status goes Static, and the module stops iff it was a fade-out marked stop-after-fade |
| SpeakerModule.RampIn | Core/SpeakerModule.cs:73 | the fade-in volume times the fade duration is the target times the time spent, and lies between silence and the target |
| SpeakerModule.RampOut | Core/SpeakerModule.cs:90 | the fade-out volume times the fade duration is the target times the time left, and lies between silence and the target |
| SpeakerModule.RampInGrows | Core/SpeakerModule.cs:73 | less time left gives a fade-in volume at least as loud |
| SpeakerModule.RampOutShrinks | Core/SpeakerModule.cs:90 | less time left gives a fade-out volume at most as loud |
| SpeakerModule.NewModule | Core/SpeakerModule.cs:37-50 | a new module is Static, not playing, has no track, and satisfies the fade invariant |
| SpeakerModule.SetVolume | Core/SpeakerModule.cs:129-133 | both speakers get the volume and nothing else changes |
| SpeakerModule.SetPlayerVolume | Core/SpeakerModule.cs:135-138 | only the stored player volume changes |
| SpeakerModule.Play | Core/SpeakerModule.cs:101-106 | the module is playing the track, the primary speaker is scheduled from `now`, the secondary stays idle, the fade is untouched |
| SpeakerModule.Stop | Core/SpeakerModule.cs:108-113 | not playing, and neither speaker plays at any clock time; track, fade and player volume are kept |
| SpeakerModule.Pause | Core/SpeakerModule.cs:115-120 | not playing and both speakers paused; track, fade and player volume are kept |
| SpeakerModule.UnPause | Core/SpeakerModule.cs:122-127 | playing and neither speaker paused; track, fade and player volume are kept |
| SpeakerModule.PauseUnPause | Core/SpeakerModule.cs:115-127 | pausing then unpausing a playing, unpaused module gives it back unchanged |
| SpeakerModule.FadeOut | Core/SpeakerModule.cs:140-146 | a fade-out of the given duration with the given stop flag starts, satisfying the invariant; nothing else changes |
| SpeakerModule.FadeIn | Core/SpeakerModule.cs:148-153 | a fade-in of the given duration starts, keeping the stop flag of an earlier fade-out; nothing else changes |
| SpeakerModule.ApplyFade | Core/SpeakerModule.cs:63-93 | the frame's volume reaches both speakers, and the module stops exactly when the frame asks for it |
| SpeakerModule.Tick | Core/SpeakerModule.cs:53-94 | a Static module is unchanged; a fading one keeps the invariant, never gains time, plays within [0, player volume], and on completion is at the player volume (in) or silent (out), stopped iff it was a stop-after-fade fade-out |
| SpeakerModule.LongFrameCompletes | Core/SpeakerModule.cs:55-93 | a frame at least as long as the time left completes the fade |
| SpeakerModule.RampIsMonotone | Core/SpeakerModule.cs:65-91 | over consecutive frames a fade-in never gets quieter and a fade-out never gets louder |
| SpeakerModule.OppositeRampsSum | Core/SpeakerModule.cs:65-91 | a fade-out and a fade-in of equal duration, one frame short of their end, have volumes summing to the target |
| SpeakerModule.UpdateSpeaker | Core/Speaker.cs:76-88 | a speaker's frame throws NullReferenceException iff the module is playing with no track and the partner is idle; otherwise only the speakers may change, and never this speaker's own voice |
| SpeakerModule.UpdateSpeakerReArms | Core/Speaker.cs:76-88 | with a track, a paused or stopped module re-arms nothing, and a playing one re-arms an idle partner at the loop start |
| LegacySpeakerModule.Tick | SpeakerModule.cs:48-89 | the root module's frame ramps towards the player's live Volume: the same invariant, ramp equations, bounds, completion and stop rule as the Core machine, with the live value as target |
| LegacySpeakerModule.LiveVolumeIsStoredVolume | SpeakerModule.cs:48-89 | the root frame equals the Core frame run with the stored player volume replaced by the live Volume |
| LegacySpeakerModule.FadeInFollowsLiveVolume | SpeakerModule.cs:58-69 | one frame of `dt` into a fade-in of `T` seconds the root module is still fading in and plays dt / T of the live Volume it is given (`RampedIn`) |
| MusicPlayer.Awake | Core/MusicPlayer.cs:27-48 | the primary module is current, nothing is fading or playing, both modules store the volume and both speakers of both play at it |
| MusicPlayer.RefreshModuleVolume | Core/MusicPlayer.cs:173-177 | both speakers of both modules get the player's volume and only the speakers change |
| MusicPlayer.Update | Core/MusicPlayer.cs:51-59 | the volume is pushed to all speakers only when it differs from the last frame's, which is then remembered; fades and the current-module marker are untouched |
| MusicPlayer.GetTrackByName | Core/MusicPlayer.cs:126-139 | succeeds iff some track has the name, and then returns the first such track; otherwise KeyNotFoundException |
| MusicPlayer.FirstMatchWins | Core/MusicPlayer.cs:126-139 | the track at the first position with the name is the one returned |
| MusicPlayer.SwitchModules | Core/MusicPlayer.cs:144-154 | the other module becomes current and nothing else changes |
| MusicPlayer.SwitchTwiceIsIdentity | Core/MusicPlayer.cs:144-154 | switching twice restores the player; switching once always changes it |
| MusicPlayer.SetVolume | Core/MusicPlayer.cs:160-168 | while either module fades nothing changes; otherwise the volume and both modules' player volume become the new value; no speaker volume changes |
| MusicPlayer.VolumeLockedWhileFading | Core/MusicPlayer.cs:160-168 | a volume change during a fade is lost: it and the next Update leave the player as it was |
| MusicPlayer.PlayTrack | Core/MusicPlayer.cs:76-80 | the current module plays the track at the player's volume with its fade and stored player volume untouched: its primary speaker is scheduled from `now` with the track, the secondary is loaded and idle; the other module and every player field are unchanged |
| MusicPlayer.PlayDuringStoppingFadeOut | Core/MusicPlayer.cs:76-80 | playing a track does not cancel the current module's fade: a module fading out to a stop is stopped and silent once that fade completes, new track or not |
| MusicPlayer.ValidPlayerTicks | Core/SpeakerModule.cs:53-94 | on a player whose modules satisfy the fade invariant both modules' frames are defined, keep it, and change nothing unless a module fades |
| MusicPlayer.PlayTrackByName | Core/MusicPlayer.cs:65-70 | throws KeyNotFoundException iff no track has the name, before changing anything; otherwise records the first match as playing and plays it on the current module exactly as PlayTrack(track) does; nothing else in the player changes |
| MusicPlayer.CrossFadeToTrack | Core/MusicPlayer.cs:86-92 | the current module switches and the old module fades out for CrossFadeTime, stopping afterwards; the new module plays the looked-up track fading in for CrossFadeTime; the incoming module keeps its stored player volume and speaker volumes and starts its primary speaker at `now`; only the modules and the current marker change; an unknown name throws only after the fade-out and the switch |
| MusicPlayer.CrossFadeToSameTrack | Core/MusicPlayer.cs:86-92 | crossfading to the playing track restarts it on the other module while the current one fades out |
| MusicPlayer.CrossFadeRampsSumToVolume | Core/MusicPlayer.cs:86-92 | one frame into a crossfade the two modules' linear ramps add up to the player volume |
| MusicPlayer.PauseTrack | Core/MusicPlayer.cs:97-100 | the current module stops playing with both speakers paused; only its playing flag and speakers change, and the other module and the player's own fields are untouched |
| MusicPlayer.UnPauseTrack | Core/MusicPlayer.cs:105-108 | the current module plays again with neither speaker paused; only its playing flag and speakers change, and the other module and the player's own fields are untouched |
| MusicPlayer.FadeInTrack | Core/MusicPlayer.cs:113-116 | the current module starts a fade-in of CrossFadeTime, keeping an earlier stop flag; only its fade changes, and the other module, the current marker and the player's own fields are untouched |
| MusicPlayer.FadeOutTrack | Core/MusicPlayer.cs:121-124 | the current module starts a fade-out of CrossFadeTime that does not stop it afterwards; only its fade changes, and the other module, the current marker and the player's own fields are untouched |
| LegacyMusicPlayer.Start | MusicPlayer.cs:28-38 | the primary module is current, nothing fades or plays, and all four speakers play at the player's volume |
| LegacyMusicPlayer.SetVolume | MusicPlayer.cs:140-146 | while either module fades nothing changes; otherwise only the player's Volume is stored |
| LegacyMusicPlayer.VolumeReachesModulesOnUpdate | MusicPlayer.cs:41-49 | an accepted volume leaves the modules untouched until the next Update, which sets every speaker to it |
| LegacyMusicPlayer.PlayTrack | MusicPlayer.cs:55-60 | throws KeyNotFoundException iff no track has the name, changing nothing; otherwise records the track and plays it on the current module, keeping the speakers' volumes and stored player volume, its primary speaker scheduled from `now`; nothing else in the player changes; the lazy tag read of a first play is outside the model |
| LegacyMusicPlayer.CrossFadeUnknownName | MusicPlayer.cs:66-72 | an unknown name throws after the old module has started a stop-after-fade fade-out and the current module has switched; the new current module is untouched |
| LegacyMusicPlayer.CrossFadeFollowsLiveVolume | MusicPlayer.cs:66-72 | one frame into a root crossfade the incoming module plays dt / CrossFadeTime of the player's live Volume |

## Left out

- Unity lifecycle and engine objects are not modelled: `AddComponent` wiring, `AudioSource`, `AudioClip.Create`, `PlayScheduled`, `Time.deltaTime` and `AudioSettings.dspTime`. Voices are records, and the clock and frame time are parameters.
- Metadata access through ATL and AssetDatabase (`TrackAsset`, `OriginalFrequency`, `ReadTrackMetadata`, Core/MusicTrack.cs:221-252 and 333-349) is file I/O. It is replaced by a given tag map, where a missing tag reads as empty, and a given original frequency.
- MusicTrack.RoundToInt: float rounding of the products is not modelled. Products are exact reals and then rounded half to even.
- MusicTrack.FrequencyRatio: float rounding is not modelled.
- MusicTrack.SecondsToSamples: float rounding is not modelled.
- MusicTrack.SamplesToSeconds: float rounding is not modelled.
- Int32 overflow of the sample arithmetic, and the Int32 range check of `Convert.ToInt32`, are not modelled.
- AudioClip.Create's own validation is not modelled. For example, it rejects a zero-length clip, so a one-frame track's empty loop clip is accepted here.
- MusicTrack.CreateAndCacheClips: when a slice fails, the contract states neither the exception (Slice's) nor the clips created before the failure. Beyond the getter errors it rethrows, a general success iff is given only at ratio 1, by CreateSucceedsIff.
- A null `Track` is not modelled: every track has an audio clip. This leaves out the `return 0` branches of LengthInSamples and LengthInSeconds, and the null `Tracks` list of Awake. A null entry in `Tracks` is not modelled either: the playlist is a sequence of records, so the NullReferenceException that GetTrackByName raises on a null element's `.Name` (Core/MusicPlayer.cs:128-131) is left out.
- MusicTrack.LengthInSamples: only the clip-missing exception is modelled. Its `Track == null` branch is excluded by the clip being always present.
- LegacyMusicPlayer.PlayTrack: the root player never cuts clips, so a root track's loop tags are read on its first play, inside `Speaker.Play` (Core/Speaker.cs:97-98). A malformed or out-of-range tag then throws FormatException or OverflowException after the module is already marked playing with the track set and the voice scheduled with no end time. The model's playlist entries carry resolved loop points, so this exception path is not stated. The same holds for a root crossfade.
- MusicPlayer.Awake: the loop that calls CreateAndCacheClips on every playlist track is not part of the function. Playlist entries carry the loop points as a created track resolves them. So is the exception path: a CreateAndCacheClips that throws (a bad loop tag, or a slice that does not fit) aborts Awake after both modules were told the volume but before RefreshModuleVolume sets the speakers (Core/MusicPlayer.cs:35-47).
- Speaker: `AudioSource.isPlaying` is the scheduled-window predicate `IsPlaying`. How the audio engine moves scheduled times while a source is paused is not modelled.
- Speaker.ReArmIsGapless: assumes the playing voice's `source.time` equals its start sample in seconds plus the clock time elapsed since its scheduled start. The audio engine reports that value and the model cannot see it.
- Speaker.HandOffsStayOnTimeline: the hand-off chain tracks only the schedule of each re-armed voice, not the audio data played.
- `Speaker.GetVolume`, `Speaker.Awake` and `SpeakerModule.SetTrack` are one-line accessors and wiring. Play and the volume predicates use them implicitly.
- The root `SpeakerModule.cs` commands (Play, Stop, Pause, UnPause, SetVolume, FadeOut, FadeIn, lines 91-143) have the same bodies as the Core ones. They are modelled by the SpeakerModule members and have no rows of their own.
- SpeakerModule.FadeStep: requires `dt >= 0` and the fade invariant. `Time.deltaTime` is never negative, and every fade the commands start satisfies the invariant for non-negative durations.
- SpeakerModule.Tick: has the same requirement as FadeStep.
- LegacySpeakerModule.Tick: has the same requirement as FadeStep.
- EnsoHelpers.EqualPowerCrossfade: `Math.Cos` is a parameter, so only symmetry and the endpoints are stated.
- `Debug.Log*` calls are left out, because they only log.
- The tests are not modelled. Tests/Enso_MusicPlayerTests.cs and Tests/Enso_MusicPlayerEventTests.cs drive a later API: intro sources, scrubbing, loop counts and fade events. Tests/Enso_MusicTrackTests.cs and Tests/Scripts/Enso_MusicPlayerTests.cs use the current getters and commands; one case, Tests/Enso_MusicTrackTests.cs:66-75, expects a track length the code does not produce.
- `MusicTrack.cs` at the root and `Core/EnsoConstants.cs` have no behaviour. The tag names are constants here, and `FrequencyTag` and `PlayEndlessly` are unused.
- Loop counts, scrubbing, pause positions and TrackEnd/TrackLoop events are not in this code, so they are not modelled.

=== FILE: errors.dfy ===
/** The exceptions the player's code can raise, and a Result type that carries
    either a value or the exception a call ends with. */
module Errors {

  /** The .NET exception types thrown on the paths this model covers. */
  datatype Exception =
    | FormatException               // int.Parse of a malformed tag
    | OverflowException             // int.Parse of a numeral outside the Int32 range,
                                    // or allocating an array of negative length
    | ArgumentOutOfRangeException   // Array.Copy with a negative source index
    | ArgumentException             // Array.Copy past the end of the source
    | KeyNotFoundException          // a track name missing from the playlist
    | NullReferenceException        // reading a clip that was never created

  datatype Result<+T> = Ok(value: T) | Err(error: Exception)

  datatype Option<+T> = None | Some(value: T)
}

=== FILE: helpers.dfy ===
/** Array slicing and the equal-power crossfade curve (Core/EnsoHelpers.cs). */
module EnsoHelpers {
  import opened Errors

  /** Whether copying `length` elements starting at `offset` stays inside a
      source of `size` elements. */
  predicate SliceFits(size: int, offset: int, length: int) {
    0 <= offset && 0 <= length && offset + length <= size
  }

  /** The exception `Slice` ends with when the request does not fit: the
      allocation of a negative-length array comes first, then Array.Copy's
      checks of the source index and of the source's end. */
  function SliceFailure(size: int, offset: int, length: int): (e: Exception)
    requires !SliceFits(size, offset, length)
    ensures e == OverflowException <==> length < 0
    ensures e == ArgumentOutOfRangeException <==> 0 <= length && offset < 0
    ensures e == ArgumentException <==> 0 <= length && 0 <= offset && offset + length > size
  {
    if length < 0 then OverflowException
    else if offset < 0 then ArgumentOutOfRangeException
    else ArgumentException
  }

  /** Reference definition of slicing a sequence: the `length` elements
      starting at `offset`, or the exception the copy raises. */
  function Slice<T>(source: seq<T>, offset: int, length: int): (r: Result<seq<T>>)
    ensures r.Ok? <==> SliceFits(|source|, offset, length)
    ensures r.Ok? ==> |r.value| == length
    ensures r.Ok? ==> forall i :: 0 <= i < length ==> r.value[i] == source[offset + i]
    ensures r.Err? ==> r.error == SliceFailure(|source|, offset, length)
  {
    if SliceFits(|source|, offset, length) then Ok(source[offset..offset + length])
    else Err(SliceFailure(|source|, offset, length))
  }

  /** The array copy itself: allocate a new array of `length` elements and
      copy them one by one from `source[offset..]`. The source is only read. */
  method SliceArray<T(0)>(source: array<T>, offset: int, length: int) returns (r: Result<array<T>>)
    ensures r.Ok? <==> SliceFits(source.Length, offset, length)
    ensures r.Err? ==> r.error == SliceFailure(source.Length, offset, length)
    ensures r.Ok? ==> fresh(r.value) && r.value.Length == length
    ensures r.Ok? ==> forall i :: 0 <= i < length ==> r.value[i] == source[offset + i]
    ensures r.Ok? ==> Slice(source[..], offset, length) == Ok(r.value[..])
  {
    if !SliceFits(source.Length, offset, length) {
      return Err(SliceFailure(source.Length, offset, length));
    }
    var destination := new T[length];
    var i := 0;
    while i < length
      invariant 0 <= i <= length
      invariant forall j :: 0 <= j < i ==> destination[j] == source[offset + j]
    {
      destination[i] := source[offset + i];
      i := i + 1;
    }
    assert destination[..] == source[offset..offset + length];
    return Ok(destination);
  }

  /** Math.PI. */
  const Pi: real := 3.141592653589793

  /** The phase the curve is evaluated at: the percentage itself when fading
      in, its complement when fading out. */
  function CrossfadePhase(percent: real, fadingIn: bool): (t: real)
    ensures fadingIn ==> t == percent
    ensures !fadingIn ==> t + percent == 1.0
  {
    if fadingIn then percent else 1.0 - percent
  }

  /** The equal-power crossfade gain, with the cosine taken as a parameter
      (the numerics of Math.Cos are not modelled). */
  function EqualPowerCrossfade(percent: real, fadingIn: bool, cos: real -> real): real
  {
    cos(CrossfadePhase(percent, fadingIn) / 2.0 * Pi)
  }

  /** Fading in at `p` and fading out at `1 - p` give the same gain, whatever
      the cosine is. */
  lemma EqualPowerSymmetry(p: real, cos: real -> real)
    ensures EqualPowerCrossfade(p, true, cos) == EqualPowerCrossfade(1.0 - p, false, cos)
    ensures EqualPowerCrossfade(p, false, cos) == EqualPowerCrossfade(1.0 - p, true, cos)
  {
  }

  /** With a cosine that is 1 at 0 and 0 at a quarter turn: with `fadingIn`
      set the gain falls from 1 at percent 0 to 0 at percent 1, and without
      it the gain rises from 0 to 1. */
  lemma EqualPowerEndpoints(cos: real -> real)
    requires cos(0.0) == 1.0 && cos(Pi / 2.0) == 0.0
    ensures EqualPowerCrossfade(0.0, true, cos) == 1.0
    ensures EqualPowerCrossfade(1.0, true, cos) == 0.0
    ensures EqualPowerCrossfade(0.0, false, cos) == 0.0
    ensures EqualPowerCrossfade(1.0, false, cos) == 1.0
  {
  }
}

=== FILE: legacy_music_player.dfy ===
/** The earlier music player (MusicPlayer.cs at the repository root). Its
    state, SwitchModules, GetTrackByName, CrossFadeToTrack, the pause and fade
    commands and Update have the same bodies as the Core player's and are
    modelled by the same members. What differs is set up here: Start neither
    tells the modules the player's volume nor cuts the tracks' clips, so a
    root track reads its loop tags on its first play; the playlist entries
    here carry resolved loop points, which leaves that lazy read and its
    exceptions out of the model. SetVolume only stores the volume, and the
    only PlayTrack takes a name and does not set the module's volume first;
    there is no PlayTrack overload taking a track. */
module LegacyMusicPlayer {
  import opened Errors
  import Speaker
  import SpeakerModule
  import LegacySpeakerModule
  import MusicPlayer

  /** Start: two new modules, the primary current, both modules' speakers
      set to the player's volume. */
  function Start(volume: real, crossFadeTime: real, tracks: seq<Speaker.TrackInfo>): (p: MusicPlayer.Player)
    ensures p.current == MusicPlayer.PrimaryModule && p.playingTrack == None
    ensures p.volume == volume && p.tracks == tracks && p.crossFadeTime == crossFadeTime
    ensures !p.EitherFading() && p.Valid()
    ensures !p.primary.isPlaying && !p.secondary.isPlaying
    ensures SpeakerModule.VolumeIs(p.primary, volume) && SpeakerModule.VolumeIs(p.secondary, volume)
  {
    var m := SpeakerModule.NewModule();
    MusicPlayer.RefreshModuleVolume(
      MusicPlayer.Player(volume, 0.0, crossFadeTime, tracks, None, m, m, MusicPlayer.PrimaryModule))
  }

  /** SetVolume: ignored while either module is fading; otherwise only the
      player's Volume is stored, and no module is touched. */
  function SetVolume(p: MusicPlayer.Player, volume: real): (r: MusicPlayer.Player)
    ensures p.Valid() ==> r.Valid()
    ensures p.EitherFading() ==> r == p
    ensures !p.EitherFading() ==> r.volume == volume
    ensures r.(volume := p.volume) == p
  {
    if !SpeakerModule.IsFading(p.primary) && !SpeakerModule.IsFading(p.secondary) then
      p.(volume := volume)
    else p
  }

  /** A volume accepted by SetVolume reaches the modules' speakers at the
      next Update, and not before. */
  lemma VolumeReachesModulesOnUpdate(p: MusicPlayer.Player, volume: real)
    requires !p.EitherFading() && volume != p.previousVolume
    ensures SetVolume(p, volume).primary == p.primary && SetVolume(p, volume).secondary == p.secondary
    ensures var r := MusicPlayer.Update(SetVolume(p, volume));
            SpeakerModule.VolumeIs(r.primary, volume) && SpeakerModule.VolumeIs(r.secondary, volume)
  {
  }

  /** PlayTrack(name): look the track up, record it, and play it on the
      current module; a failed lookup changes nothing. */
  function PlayTrack(p: MusicPlayer.Player, name: string, now: real): (r: MusicPlayer.Step)
    ensures p.Valid() ==> r.player.Valid()
    ensures r.thrown.Some? <==> MusicPlayer.GetTrackByName(p.tracks, name).Err?
    ensures r.thrown.Some? ==> r.player == p && r.thrown == Some(KeyNotFoundException)
    ensures r.thrown.None? ==>
              var t := MusicPlayer.GetTrackByName(p.tracks, name).value;
              && r.player.playingTrack == Some(t)
              && r.player.current == p.current
              && r.player.Current().isPlaying && r.player.Current().playingTrack == Some(t)
              && r.player.Current().fade == p.Current().fade
              && r.player.Module(p.current.Other()) == p.Module(p.current.Other())
    // the module's speakers keep their volume
    ensures r.thrown.None? ==>
              && r.player.Current().speakers.primary.volume == p.Current().speakers.primary.volume
              && r.player.Current().speakers.secondary.volume == p.Current().speakers.secondary.volume
              && r.player.Current().playerVolume == p.Current().playerVolume
    // the primary speaker starts the track now; only the modules and the
    // playing track change
    ensures r.thrown.None? ==>
              var into := r.player.Current();
              && into.speakers.primary.active && into.speakers.primary.scheduledStart == now
              && into.speakers.primary.clip == into.playingTrack && !into.speakers.secondary.active
              && r.player.(primary := p.primary, secondary := p.secondary, playingTrack := p.playingTrack) == p
  {
    match MusicPlayer.GetTrackByName(p.tracks, name)
    case Err(e) => MusicPlayer.Step(p, Some(e))
    case Ok(t) =>
      var q := p.(playingTrack := Some(t));
      MusicPlayer.Step(q.WithModule(q.current, SpeakerModule.Play(q.Current(), t, now)), None)
  }

  /** A crossfade to an unknown name throws after the outgoing module has
      started fading out and the current module has switched; the incoming
      module is left as it was. */
  lemma CrossFadeUnknownName(p: MusicPlayer.Player, name: string, now: real)
    requires MusicPlayer.GetTrackByName(p.tracks, name).Err?
    ensures var r := MusicPlayer.CrossFadeToTrack(p, name, now);
            && r.thrown == Some(KeyNotFoundException)
            && r.player.current == p.current.Other()
            && r.player.Module(p.current).fade.status == SpeakerModule.FadingOut
            && r.player.Module(p.current).fade.stopAfterFade
            && r.player.Current() == p.Module(p.current.Other())
  {
  }

  /** In the root variant the incoming module of a crossfade ramps towards
      the player's Volume as it is at each frame: one frame into a fade of
      `T` seconds it plays at dt / T of the current Volume. */
  lemma CrossFadeFollowsLiveVolume(p: MusicPlayer.Player, name: string, now: real, dt: real, liveVolume: real)
    requires 0.0 <= dt < p.crossFadeTime
    requires MusicPlayer.CrossFadeToTrack(p, name, now).thrown.None?
    ensures var into := MusicPlayer.CrossFadeToTrack(p, name, now).player.Current();
            LegacySpeakerModule.RampedIn(LegacySpeakerModule.Tick(into, dt, liveVolume), p.crossFadeTime, dt, liveVolume)
  {
    LegacySpeakerModule.FadeInFollowsLiveVolume(
      MusicPlayer.CrossFadeToTrack(p, name, now).player.Current(), p.crossFadeTime, dt, liveVolume);
  }
}

=== FILE: legacy_speaker_module.dfy ===
/** The earlier speaker module (SpeakerModule.cs at the repository root). Its
    state and commands (Play, Stop, Pause, UnPause, SetVolume, FadeOut,
    FadeIn) have the same bodies as the Core module's and are modelled by the
    same members; only the fade's target differs: it is read live from the
    player's Volume on every frame instead of being stored in the module. */
module LegacySpeakerModule {
  import SpeakerModule

  /** The root module's Update: one frame of the fade machine, fading towards
      `playerVolume`, the player's Volume at this frame. */
  function Tick(m: SpeakerModule.Module, dt: real, playerVolume: real): (r: SpeakerModule.Module)
    requires SpeakerModule.FadeInvariant(m.fade) && dt >= 0.0
    ensures SpeakerModule.FadeInvariant(r.fade)
    ensures !SpeakerModule.IsFading(m) ==> r == m
    ensures r.fade.timeLeft <= m.fade.timeLeft
    ensures 0.0 <= playerVolume && SpeakerModule.IsFading(m) ==>
              exists v :: SpeakerModule.VolumeIs(r, v) && 0.0 <= v <= playerVolume
    ensures r.fade.status == SpeakerModule.FadingIn ==>
              exists v :: SpeakerModule.VolumeIs(r, v)
                          && v * r.fade.maxTime == playerVolume * (r.fade.maxTime - r.fade.timeLeft)
    ensures r.fade.status == SpeakerModule.FadingOut ==>
              exists v :: SpeakerModule.VolumeIs(r, v) && v * r.fade.maxTime == playerVolume * r.fade.timeLeft
    ensures m.fade.status == SpeakerModule.FadingIn && !SpeakerModule.IsFading(r) ==>
              SpeakerModule.VolumeIs(r, playerVolume) && r.isPlaying == m.isPlaying
    ensures m.fade.status == SpeakerModule.FadingOut && !SpeakerModule.IsFading(r) ==>
              SpeakerModule.VolumeIs(r, 0.0)
    ensures m.fade.status == SpeakerModule.FadingOut && !SpeakerModule.IsFading(r) && m.fade.stopAfterFade ==>
              !r.isPlaying
  {
    SpeakerModule.ApplyFade(m, SpeakerModule.FadeStep(m.fade, dt, playerVolume))
  }

  /** The two variants agree whenever the stored player volume equals the
      player's live Volume; a Volume change made mid-fade reaches the root
      module's ramp on the very next frame. */
  lemma LiveVolumeIsStoredVolume(m: SpeakerModule.Module, dt: real, playerVolume: real)
    requires SpeakerModule.FadeInvariant(m.fade) && dt >= 0.0
    ensures Tick(m, dt, playerVolume)
         == SpeakerModule.Tick(m.(playerVolume := playerVolume), dt).(playerVolume := m.playerVolume)
  {
  }

  /** `m` is still fading in and plays the share dt / time of `playerVolume`. */
  predicate RampedIn(m: SpeakerModule.Module, time: real, dt: real, playerVolume: real)
  {
    m.fade.status == SpeakerModule.FadingIn && m.speakers.primary.volume * time == playerVolume * dt
  }

  /** One frame into a fade-in of `time` seconds the root module plays
      dt / time of the player's live Volume. */
  lemma FadeInFollowsLiveVolume(m: SpeakerModule.Module, time: real, dt: real, playerVolume: real)
    requires 0.0 <= dt < time
    requires m.fade.status == SpeakerModule.FadingIn && m.fade.timeLeft == time && m.fade.maxTime == time
    ensures RampedIn(Tick(m, dt, playerVolume), time, dt, playerVolume)
  {
    SpeakerModule.OppositeRampsSum(time, dt, playerVolume, true, m.fade.stopAfterFade);
    var o := SpeakerModule.FadeStep(m.fade, dt, playerVolume);
    assert o.volume.value * time == playerVolume * dt;
  }
}

=== FILE: music_player.dfy ===
/** The music player: two speaker modules with a marker for the current one,
    a playlist looked up by name, a volume guarded against changes while
    fading, and crossfades that hand playback from one module to the other
    (Core/MusicPlayer.cs). The audio clock is a parameter of the commands
    that start playback. */
module MusicPlayer {
  import opened Errors
  import Speaker
  import SpeakerModule

  /** Which module is current. */
  datatype Slot = PrimaryModule | SecondaryModule {
    function Other(): (r: Slot)
      ensures r != this
    {
      if PrimaryModule? then SecondaryModule else PrimaryModule
    }
  }

  datatype Player = Player(
    volume: real,
    previousVolume: real,
    crossFadeTime: real,
    tracks: seq<Speaker.TrackInfo>,
    playingTrack: Option<Speaker.TrackInfo>,
    primary: SpeakerModule.Module,
    secondary: SpeakerModule.Module,
    current: Slot)
  {
    function Module(slot: Slot): SpeakerModule.Module {
      if slot.PrimaryModule? then primary else secondary
    }

    function Current(): SpeakerModule.Module {
      Module(current)
    }

    function WithModule(slot: Slot, m: SpeakerModule.Module): (r: Player)
      ensures r.Module(slot) == m && r.Module(slot.Other()) == Module(slot.Other())
      ensures r.(primary := primary, secondary := secondary) == this
    {
      if slot.PrimaryModule? then this.(primary := m) else this.(secondary := m)
    }

    predicate EitherFading() {
      SpeakerModule.IsFading(primary) || SpeakerModule.IsFading(secondary)
    }

    /** Both modules' fade states satisfy the fade invariant. */
    predicate Valid() {
      SpeakerModule.FadeInvariant(primary.fade) && SpeakerModule.FadeInvariant(secondary.fade)
    }
  }

  /** The outcome of a command that may throw: the player afterwards (with
      whatever the command changed before throwing) and the exception. */
  datatype Step = Step(player: Player, thrown: Option<Exception>)

  /** Awake: two new modules, the primary current, both told the player's
      volume, and both speakers of both modules set to it. The clips of the
      playlist's tracks are cut here too; the playlist entries hold the loop
      points as those resolved them. */
  function Awake(volume: real, crossFadeTime: real, tracks: seq<Speaker.TrackInfo>): (p: Player)
    ensures p.current == PrimaryModule && p.playingTrack == None
    ensures p.volume == volume && p.crossFadeTime == crossFadeTime && p.tracks == tracks
    ensures !p.EitherFading() && p.Valid()
    ensures !p.primary.isPlaying && !p.secondary.isPlaying
    ensures p.primary.playerVolume == volume && p.secondary.playerVolume == volume
    ensures SpeakerModule.VolumeIs(p.primary, volume) && SpeakerModule.VolumeIs(p.secondary, volume)
  {
    var m := SpeakerModule.SetPlayerVolume(SpeakerModule.NewModule(), volume);
    RefreshModuleVolume(Player(volume, 0.0, crossFadeTime, tracks, None, m, m, PrimaryModule))
  }

  /** RefreshModuleVolume: both modules' speakers to the player's volume. */
  function RefreshModuleVolume(p: Player): (r: Player)
    ensures p.Valid() ==> r.Valid()
    ensures SpeakerModule.VolumeIs(r.primary, p.volume) && SpeakerModule.VolumeIs(r.secondary, p.volume)
    ensures r.(primary := p.primary, secondary := p.secondary) == p
    ensures r.primary.(speakers := p.primary.speakers) == p.primary
    ensures r.secondary.(speakers := p.secondary.speakers) == p.secondary
  {
    p.(primary := SpeakerModule.SetVolume(p.primary, p.volume),
       secondary := SpeakerModule.SetVolume(p.secondary, p.volume))
  }

  /** Update: push the volume to both modules only when it differs from the
      volume seen at the previous frame. */
  function Update(p: Player): (r: Player)
    ensures p.Valid() ==> r.Valid()
    ensures r.previousVolume == p.volume
    ensures p.volume == p.previousVolume ==> r == p
    ensures p.volume != p.previousVolume ==>
              SpeakerModule.VolumeIs(r.primary, p.volume) && SpeakerModule.VolumeIs(r.secondary, p.volume)
    ensures r.current == p.current && r.volume == p.volume && r.tracks == p.tracks
    ensures r.primary.fade == p.primary.fade && r.secondary.fade == p.secondary.fade
  {
    if p.volume != p.previousVolume then RefreshModuleVolume(p).(previousVolume := p.volume)
    else p
  }

  /** Whether `i` is the first position of the playlist holding a track
      called `name`. */
  predicate FirstNamed(tracks: seq<Speaker.TrackInfo>, name: string, i: int) {
    0 <= i < |tracks| && tracks[i].name == name
    && forall j :: 0 <= j < i ==> tracks[j].name != name
  }

  /** GetTrackByName: the first track with that name, or KeyNotFoundException. */
  function GetTrackByName(tracks: seq<Speaker.TrackInfo>, name: string): (r: Result<Speaker.TrackInfo>)
    ensures r.Ok? <==> exists i :: 0 <= i < |tracks| && tracks[i].name == name
    ensures r.Ok? ==> exists i :: FirstNamed(tracks, name, i) && tracks[i] == r.value
    ensures r.Err? ==> r.error == KeyNotFoundException
    decreases |tracks|
  {
    if |tracks| == 0 then Err(KeyNotFoundException)
    else if tracks[0].name == name then
      assert FirstNamed(tracks, name, 0);
      Ok(tracks[0])
    else
      var rest := GetTrackByName(tracks[1..], name);
      if rest.Ok? then
        var k :| FirstNamed(tracks[1..], name, k) && tracks[1..][k] == rest.value;
        assert FirstNamed(tracks, name, k + 1);
        rest
      else
        assert forall i :: 1 <= i < |tracks| ==> tracks[1..][i - 1] == tracks[i];
        rest
  }

  /** The track found is the one at the first matching position. */
  lemma FirstMatchWins(tracks: seq<Speaker.TrackInfo>, name: string, i: int)
    requires FirstNamed(tracks, name, i)
    ensures GetTrackByName(tracks, name) == Ok(tracks[i])
  {
  }

  /** SwitchModules: the other module becomes current; nothing else changes. */
  function SwitchModules(p: Player): (r: Player)
    ensures r.current != p.current
    ensures r.(current := p.current) == p
  {
    p.(current := p.current.Other())
  }

  lemma SwitchTwiceIsIdentity(p: Player)
    ensures SwitchModules(SwitchModules(p)) == p
    ensures SwitchModules(p) != p
  {
  }

  /** SetVolume: while either module is fading nothing changes at all;
      otherwise the volume and both modules' player volume become `volume`. */
  function SetVolume(p: Player, volume: real): (r: Player)
    ensures p.Valid() ==> r.Valid()
    ensures p.EitherFading() ==> r == p
    ensures !p.EitherFading() ==>
              r.volume == volume && r.primary.playerVolume == volume && r.secondary.playerVolume == volume
    ensures r.primary.speakers == p.primary.speakers && r.secondary.speakers == p.secondary.speakers
    ensures r.(volume := p.volume, primary := p.primary, secondary := p.secondary) == p
  {
    if !SpeakerModule.IsFading(p.primary) && !SpeakerModule.IsFading(p.secondary) then
      p.(volume := volume,
         primary := SpeakerModule.SetPlayerVolume(p.primary, volume),
         secondary := SpeakerModule.SetPlayerVolume(p.secondary, volume))
    else p
  }

  /** A volume change while fading leaves every speaker's output volume as
      it was, and so does the next frame's Update. */
  lemma VolumeLockedWhileFading(p: Player, volume: real)
    requires p.EitherFading() && p.volume == p.previousVolume
    ensures Update(SetVolume(p, volume)) == p
  {
  }

  /** PlayTrack(track): set the current module's speakers to the player's
      volume and play the track on it, at clock time `now`. The player's own
      PlayingTrack is not touched by this overload. */
  function PlayTrack(p: Player, t: Speaker.TrackInfo, now: real): (r: Player)
    ensures p.Valid() ==> r.Valid()
    ensures r.current == p.current
    ensures r.Current().isPlaying && r.Current().playingTrack == Some(t)
    ensures SpeakerModule.VolumeIs(r.Current(), p.volume)
    ensures r.Current().fade == p.Current().fade && r.Current().playerVolume == p.Current().playerVolume
    // the primary speaker starts the track now; the secondary waits idle
    ensures r.Current().speakers.primary.active && r.Current().speakers.primary.scheduledStart == now
    ensures r.Current().speakers.primary.clip == Some(t) && r.Current().speakers.secondary.clip == Some(t)
    ensures !r.Current().speakers.secondary.active
    ensures r.Module(p.current.Other()) == p.Module(p.current.Other())
    ensures r.WithModule(p.current, p.Current()) == p
  {
    var m := SpeakerModule.Play(SpeakerModule.SetVolume(p.Current(), p.volume), t, now);
    p.WithModule(p.current, m)
  }

  /** PlayTrack does not cancel a fade in progress: a track played on a
      module that is fading out to a stop is stopped, silent, once that fade
      completes. */
  lemma PlayDuringStoppingFadeOut(p: Player, t: Speaker.TrackInfo, now: real, dt: real)
    requires p.Valid() && dt >= 0.0
    requires p.Current().fade.status == SpeakerModule.FadingOut && p.Current().fade.stopAfterFade
    requires dt >= p.Current().fade.timeLeft
    ensures SpeakerModule.FadeInvariant(PlayTrack(p, t, now).Current().fade)
    ensures var m := SpeakerModule.Tick(PlayTrack(p, t, now).Current(), dt);
            !m.isPlaying && SpeakerModule.VolumeIs(m, 0.0)
  {
    var m := PlayTrack(p, t, now).Current();
    assert m.fade == p.Current().fade;
    SpeakerModule.LongFrameCompletes(m, dt);
  }

  /** Every fade a command starts satisfies the fade invariant, so on a
      valid player both modules' frames are defined, keep it valid, and
      change nothing unless a module is fading. */
  lemma ValidPlayerTicks(p: Player, dt: real)
    requires p.Valid() && dt >= 0.0
    ensures var q := p.(primary := SpeakerModule.Tick(p.primary, dt),
                        secondary := SpeakerModule.Tick(p.secondary, dt));
            q.Valid() && (!p.EitherFading() ==> q == p)
  {
  }

  /** PlayTrack(name): look the track up, record it as the playing track,
      then play it; a failed lookup throws before anything changes. */
  function PlayTrackByName(p: Player, name: string, now: real): (r: Step)
    ensures p.Valid() ==> r.player.Valid()
    ensures r.thrown.Some? <==> GetTrackByName(p.tracks, name).Err?
    ensures r.thrown.Some? ==> r.player == p && r.thrown == Some(KeyNotFoundException)
    ensures r.thrown.None? ==>
              var t := GetTrackByName(p.tracks, name).value;
              && r.player.playingTrack == Some(t)
              && r.player.current == p.current
              && r.player.Current().isPlaying && r.player.Current().playingTrack == Some(t)
              && r.player.Module(p.current.Other()) == p.Module(p.current.Other())
    // on success the track is played exactly as PlayTrack(track) plays it,
    // and only the modules and the playing track change
    ensures r.thrown.None? ==>
              var t := GetTrackByName(p.tracks, name).value;
              && r.player.Current() == PlayTrack(p, t, now).Current()
              && r.player.(primary := p.primary, secondary := p.secondary, playingTrack := p.playingTrack) == p
  {
    match GetTrackByName(p.tracks, name)
    case Err(e) => Step(p, Some(e))
    case Ok(t) => Step(PlayTrack(p.(playingTrack := Some(t)), t, now), None)
  }

  /** CrossFadeToTrack: fade the current module out (stopping it when done),
      make the other module current, then look the track up, play it there
      and fade it in; both fades last CrossFadeTime. An unknown name throws
      only after the fade-out has started and the current module has switched. */
  function CrossFadeToTrack(p: Player, name: string, now: real): (r: Step)
    ensures p.Valid() ==> r.player.Valid()
    ensures r.player.current == p.current.Other()
    ensures var out := r.player.Module(p.current);
            && out.fade == SpeakerModule.Fade(SpeakerModule.FadingOut, p.crossFadeTime, p.crossFadeTime, true)
            && out.(fade := p.Current().fade) == p.Current()
    ensures r.thrown.Some? <==> GetTrackByName(p.tracks, name).Err?
    ensures r.thrown.Some? ==>
              r.thrown == Some(KeyNotFoundException) && r.player.Current() == p.Module(p.current.Other())
    ensures r.thrown.None? ==>
              var t := GetTrackByName(p.tracks, name).value;
              var into := r.player.Current();
              && into.isPlaying && into.playingTrack == Some(t)
              && into.fade.status == SpeakerModule.FadingIn
              && into.fade.timeLeft == p.crossFadeTime && into.fade.maxTime == p.crossFadeTime
    // the incoming module keeps its stored player volume and its speakers'
    // volumes; its primary speaker starts the track now
    ensures r.thrown.None? ==>
              var t := GetTrackByName(p.tracks, name).value;
              var before := p.Module(p.current.Other());
              var into := r.player.Current();
              && into.playerVolume == before.playerVolume
              && into.speakers.primary.volume == before.speakers.primary.volume
              && into.speakers.secondary.volume == before.speakers.secondary.volume
              && into.speakers.primary.active && into.speakers.primary.scheduledStart == now
              && into.speakers.primary.clip == Some(t) && !into.speakers.secondary.active
    // only the modules and the current marker change
    ensures r.player.(primary := p.primary, secondary := p.secondary, current := p.current) == p
  {
    var out := SpeakerModule.FadeOut(p.Current(), p.crossFadeTime, true);
    var switched := SwitchModules(p.WithModule(p.current, out));
    match GetTrackByName(p.tracks, name)
    case Err(e) => Step(switched, Some(e))
    case Ok(t) =>
      var into := SpeakerModule.FadeIn(SpeakerModule.Play(switched.Current(), t, now), p.crossFadeTime);
      Step(switched.WithModule(switched.current, into), None)
  }

  /** Crossfading to the track already playing still goes through the other
      module: the playing module fades out and the other one restarts the
      track. */
  lemma CrossFadeToSameTrack(p: Player, now: real)
    requires p.playingTrack.Some? && p.playingTrack.value in p.tracks
    ensures var r := CrossFadeToTrack(p, p.playingTrack.value.name, now);
            && r.thrown.None?
            && r.player.current != p.current
            && r.player.Module(p.current).fade.status == SpeakerModule.FadingOut
            && r.player.Current().fade.status == SpeakerModule.FadingIn
  {
    var i :| 0 <= i < |p.tracks| && p.tracks[i] == p.playingTrack.value;
    assert p.tracks[i].name == p.playingTrack.value.name;
  }

  /** During a crossfade both modules ramp linearly in opposite directions:
      one frame of `dt` into a crossfade of `T` seconds leaves the outgoing
      module at (T - dt) / T and the incoming one at dt / T of the player
      volume, so the two add up to the player volume. */
  lemma CrossFadeRampsSumToVolume(p: Player, name: string, now: real, dt: real)
    requires p.primary.playerVolume == p.secondary.playerVolume
    requires 0.0 <= dt < p.crossFadeTime
    requires CrossFadeToTrack(p, name, now).thrown.None?
    ensures var q := CrossFadeToTrack(p, name, now).player;
            var out := SpeakerModule.Tick(q.Module(p.current), dt);
            var into := SpeakerModule.Tick(q.Current(), dt);
            && SpeakerModule.IsFading(out) && SpeakerModule.IsFading(into)
            && out.speakers.primary.volume + into.speakers.primary.volume == p.primary.playerVolume
  {
    var q := CrossFadeToTrack(p, name, now).player;
    var T := p.crossFadeTime;
    var pv := p.primary.playerVolume;
    var mo := q.Module(p.current);
    var mi := q.Current();
    assert mo.playerVolume == pv && mi.playerVolume == pv;
    SpeakerModule.OppositeRampsSum(T, dt, pv, true, mi.fade.stopAfterFade);
  }

  /** PauseTrack, UnPauseTrack, FadeInTrack and FadeOutTrack act on the
      current module only; FadeOutTrack does not stop it afterwards. */
  function PauseTrack(p: Player): (r: Player)
    ensures p.Valid() ==> r.Valid()
    ensures !r.Current().isPlaying && r.current == p.current
    ensures r.Current().speakers.primary.paused && r.Current().speakers.secondary.paused
    ensures r.Current().(isPlaying := p.Current().isPlaying, speakers := p.Current().speakers) == p.Current()
    ensures r.Module(p.current.Other()) == p.Module(p.current.Other())
    ensures r.(primary := p.primary, secondary := p.secondary) == p
  {
    p.WithModule(p.current, SpeakerModule.Pause(p.Current()))
  }

  function UnPauseTrack(p: Player): (r: Player)
    ensures p.Valid() ==> r.Valid()
    ensures r.Current().isPlaying && r.current == p.current
    ensures !r.Current().speakers.primary.paused && !r.Current().speakers.secondary.paused
    ensures r.Current().(isPlaying := p.Current().isPlaying, speakers := p.Current().speakers) == p.Current()
    ensures r.Module(p.current.Other()) == p.Module(p.current.Other())
    ensures r.(primary := p.primary, secondary := p.secondary) == p
  {
    p.WithModule(p.current, SpeakerModule.UnPause(p.Current()))
  }

  function FadeInTrack(p: Player): (r: Player)
    ensures p.Valid() ==> r.Valid()
    ensures r.Current().fade.status == SpeakerModule.FadingIn && r.EitherFading()
    ensures r.Current().fade.stopAfterFade == p.Current().fade.stopAfterFade
    ensures r.Current().fade.timeLeft == p.crossFadeTime && r.Current().fade.maxTime == p.crossFadeTime
    ensures r.current == p.current && r.Current().(fade := p.Current().fade) == p.Current()
    ensures r.Module(p.current.Other()) == p.Module(p.current.Other())
    ensures r.(primary := p.primary, secondary := p.secondary) == p
  {
    p.WithModule(p.current, SpeakerModule.FadeIn(p.Current(), p.crossFadeTime))
  }

  function FadeOutTrack(p: Player): (r: Player)
    ensures p.Valid() ==> r.Valid()
    ensures r.Current().fade.status == SpeakerModule.FadingOut && r.EitherFading()
    ensures !r.Current().fade.stopAfterFade
    ensures r.Current().fade.timeLeft == p.crossFadeTime && r.Current().fade.maxTime == p.crossFadeTime
    ensures r.current == p.current && r.Current().(fade := p.Current().fade) == p.Current()
    ensures r.Module(p.current.Other()) == p.Module(p.current.Other())
    ensures r.(primary := p.primary, secondary := p.secondary) == p
  {
    p.WithModule(p.current, SpeakerModule.FadeOut(p.Current(), p.crossFadeTime, false))
  }
}

=== FILE: music_track.dfy ===
/** A music track: loop-point resolution with a one-time metadata read, and
    the split of the clip's sample buffer into an intro clip and a loop clip
    (Core/MusicTrack.cs). */
module MusicTrack {
  import opened Errors
  import EnsoHelpers

  const LoopStartTag: string := "LOOPSTART"
  const LoopLengthTag: string := "LOOPLENGTH"

  function Max(a: int, b: int): int { if a >= b then a else b }
  function Min(a: int, b: int): int { if a <= b then a else b }

  /** What reading one metadata tag yields: nothing (absent or empty), a
      decimal numeral with its value (which may lie outside the Int32 range),
      or a string that is not a numeral. */
  datatype Tag = Empty | Int(n: int) | Malformed

  const Int32Min: int := -0x8000_0000
  const Int32Max: int := 0x7FFF_FFFF

  predicate IsInt32(n: int) {
    Int32Min <= n <= Int32Max
  }

  /** int.Parse of a non-empty tag: the numeral's value when it fits an
      Int32, OverflowException when it does not, FormatException when the
      string is not a numeral. */
  function ParseTag(tag: Tag): (r: Result<int>)
    requires !tag.Empty?
    ensures r.Ok? <==> tag.Int? && IsInt32(tag.n)
    ensures r.Ok? ==> r.value == tag.n && IsInt32(r.value)
    ensures r.Err? ==> (r.error == FormatException <==> tag.Malformed?)
    ensures r.Err? ==> (r.error == OverflowException <==> tag.Int?)
  {
    match tag
    case Int(n) => if IsInt32(n) then Ok(n) else Err(OverflowException)
    case Malformed => Err(FormatException)
  }

  /** Whether parsing the tag throws: only a non-empty tag is parsed. */
  predicate ParseFails(tag: Tag) {
    !tag.Empty? && ParseTag(tag).Err?
  }

  /** The track file's metadata, as the reader sees it: the sample rate the
      file was authored at (0 when the asset cannot be opened) and its tags. */
  datatype Metadata = Metadata(originalFrequency: int, tags: map<string, Tag>)

  /** A missing field reads as the empty string. */
  function ReadTag(meta: Metadata, name: string): Tag {
    if name in meta.tags then meta.tags[name] else Empty
  }

  /** The imported audio clip: `samples` frames of `channels` interleaved
      samples each, at `frequency` Hz. */
  datatype Clip = Clip(samples: nat, channels: nat, frequency: int, data: seq<real>)

  type AudioClip = c: Clip | |c.data| == c.samples * c.channels && c.frequency > 0
    witness Clip(0, 1, 1, [])

  /** A clip made by AudioClip.Create: its declared frame count and, once
      SetData has been called on it, the samples written to it. */
  datatype CreatedClip = CreatedClip(samples: int, channels: nat, frequency: int, written: Option<seq<real>>)

  /** The mutable state of a MusicTrack: the designer's overrides, the values
      loaded from metadata and whether each tag has been read, and the
      cached intro and loop clips. */
  datatype Track = Track(
    name: string,
    clip: AudioClip,
    sampleLoopStart: int,
    sampleLoopLength: int,
    compensateForFrequency: bool,
    loadedLoopStart: int,
    loadedLoopLength: int,
    attemptedLoopStartRead: bool,
    attemptedLoopLengthRead: bool,
    introClip: Option<CreatedClip>,
    loopClip: Option<CreatedClip>)

  /** A freshly constructed track: no overrides, nothing loaded, frequency
      compensation on. */
  function NewTrack(name: string, clip: AudioClip): (t: Track)
    ensures !StartResolved(t) && !LengthResolved(t)
    ensures t.compensateForFrequency
    ensures t.introClip == None && t.loopClip == None
  {
    Track(name, clip, 0, 0, true, 0, 0, false, false, None, None)
  }

  /** The outcome of a getter or of clip creation: the value or exception,
      the track's state afterwards, and the tags read on the way, in order. */
  datatype Got<+T> = Got(result: Result<T>, track: Track, tagsRead: seq<string>)

  /** Once this holds, LoopStart is answered from the track's own fields. */
  predicate StartResolved(t: Track) {
    t.sampleLoopStart > 0 || t.loadedLoopStart > 0 || t.attemptedLoopStartRead
  }

  predicate LengthResolved(t: Track) {
    t.sampleLoopLength > 0 || t.loadedLoopLength > 0 || t.attemptedLoopLengthRead
  }

  /** The value LoopStart answers with once resolved. */
  function CachedLoopStart(t: Track): int
    requires StartResolved(t)
  {
    if t.sampleLoopStart > 0 then t.sampleLoopStart else t.loadedLoopStart
  }

  function CachedLoopLength(t: Track): int
    requires LengthResolved(t)
  {
    if t.sampleLoopLength > 0 then t.sampleLoopLength else t.loadedLoopLength
  }

  /** The LoopStart getter: the override if positive, else a positive loaded
      value, else the LOOPSTART tag, read once. The attempted flag is set
      before the tag is parsed, so a tag that fails to parse still counts as
      read. */
  function GetLoopStart(t: Track, meta: Metadata): (g: Got<int>)
    ensures g.tagsRead == [] || g.tagsRead == [LoopStartTag]
    ensures g.tagsRead == [] <==> StartResolved(t)
    ensures StartResolved(g.track)
    ensures StartResolved(t) ==> g.track == t && g.result == Ok(CachedLoopStart(t))
    ensures g.result.Ok? ==> g.result.value == CachedLoopStart(g.track)
    // the tag's value when it is read
    ensures !StartResolved(t) && ReadTag(meta, LoopStartTag) == Empty ==> g.result == Ok(0)
    ensures !StartResolved(t) && !ReadTag(meta, LoopStartTag).Empty? ==>
              g.result == ParseTag(ReadTag(meta, LoopStartTag))
    ensures g.result.Err? <==> !StartResolved(t) && ParseFails(ReadTag(meta, LoopStartTag))
    // only the loop-start cache may change
    ensures g.track == t.(loadedLoopStart := g.track.loadedLoopStart,
                          attemptedLoopStartRead := g.track.attemptedLoopStartRead)
  {
    if t.sampleLoopStart > 0 then Got(Ok(t.sampleLoopStart), t, [])
    else if t.loadedLoopStart > 0 then Got(Ok(t.loadedLoopStart), t, [])
    else if t.attemptedLoopStartRead then Got(Ok(t.loadedLoopStart), t, [])
    else
      var read := t.(attemptedLoopStartRead := true);
      var tag := ReadTag(meta, LoopStartTag);
      if tag.Empty? then Got(Ok(0), read.(loadedLoopStart := 0), [LoopStartTag])
      else
        match ParseTag(tag)
        case Ok(n) => Got(Ok(n), read.(loadedLoopStart := n), [LoopStartTag])
        case Err(e) => Got(Err(e), read, [LoopStartTag])
  }

  /** The LoopLength getter: like LoopStart, except that a missing tag gives
      the rest of the track after LoopStart, which may itself read its tag. */
  function GetLoopLength(t: Track, meta: Metadata): (g: Got<int>)
    ensures g.tagsRead == [] <==> LengthResolved(t)
    ensures g.tagsRead == [] || g.tagsRead == [LoopLengthTag] || g.tagsRead == [LoopLengthTag, LoopStartTag]
    ensures LengthResolved(g.track)
    ensures LengthResolved(t) ==> g.track == t && g.result == Ok(CachedLoopLength(t))
    ensures g.result.Ok? ==> g.result.value == CachedLoopLength(g.track)
    // LOOPSTART is read only to fill in a missing LOOPLENGTH
    ensures g.tagsRead == [LoopLengthTag, LoopStartTag] <==>
              !LengthResolved(t) && ReadTag(meta, LoopLengthTag) == Empty && !StartResolved(t)
    // the tag's value when it is read
    ensures !LengthResolved(t) && !ReadTag(meta, LoopLengthTag).Empty? ==>
              g.result == ParseTag(ReadTag(meta, LoopLengthTag))
    ensures !LengthResolved(t) && ReadTag(meta, LoopLengthTag) == Empty && GetLoopStart(t, meta).result.Ok? ==>
              g.result == Ok(t.clip.samples - Min(t.clip.samples, GetLoopStart(t, meta).result.value))
    ensures g.result.Err? <==>
              !LengthResolved(t)
              && (ParseFails(ReadTag(meta, LoopLengthTag))
                  || (ReadTag(meta, LoopLengthTag) == Empty && GetLoopStart(t, meta).result.Err?))
    ensures g.result.Err? && ReadTag(meta, LoopLengthTag) == Empty ==> g.result == GetLoopStart(t, meta).result
    ensures StartResolved(t) ==> StartResolved(g.track) && CachedLoopStart(g.track) == CachedLoopStart(t)
    // only the two loop-point caches may change
    ensures g.track == t.(loadedLoopStart := g.track.loadedLoopStart,
                          attemptedLoopStartRead := g.track.attemptedLoopStartRead,
                          loadedLoopLength := g.track.loadedLoopLength,
                          attemptedLoopLengthRead := g.track.attemptedLoopLengthRead)
  {
    if t.sampleLoopLength > 0 then Got(Ok(t.sampleLoopLength), t, [])
    else if t.loadedLoopLength > 0 then Got(Ok(t.loadedLoopLength), t, [])
    else if t.attemptedLoopLengthRead then Got(Ok(t.loadedLoopLength), t, [])
    else
      var read := t.(attemptedLoopLengthRead := true);
      var tag := ReadTag(meta, LoopLengthTag);
      if tag.Empty? then
        var start := GetLoopStart(read, meta);
        assert start.result == GetLoopStart(t, meta).result;
        match start.result
        case Ok(ls) =>
          var rest := read.clip.samples - Min(read.clip.samples, ls);
          Got(Ok(rest), start.track.(loadedLoopLength := rest), [LoopLengthTag] + start.tagsRead)
        case Err(e) => Got(Err(e), start.track, [LoopLengthTag] + start.tagsRead)
      else
        match ParseTag(tag)
        case Ok(n) => Got(Ok(n), read.(loadedLoopLength := n), [LoopLengthTag])
        case Err(e) => Got(Err(e), read, [LoopLengthTag])
  }

  /** The LoopStart setter writes the override and nothing else. */
  function SetLoopStart(t: Track, value: int): (r: Track)
    ensures r.sampleLoopStart == value
    ensures r.(sampleLoopStart := t.sampleLoopStart) == t
  {
    t.(sampleLoopStart := value)
  }

  function SetLoopLength(t: Track, value: int): (r: Track)
    ensures r.sampleLoopLength == value
    ensures r.(sampleLoopLength := t.sampleLoopLength) == t
  {
    t.(sampleLoopLength := value)
  }

  /** A positive override is answered as-is, without reading metadata,
      whatever the cache and the tags hold. */
  lemma PositiveOverrideWins(t: Track, meta: Metadata, start: int, length: int)
    requires start > 0 && length > 0
    ensures GetLoopStart(SetLoopStart(t, start), meta)
         == Got(Ok(start), SetLoopStart(t, start), [])
    ensures GetLoopLength(SetLoopLength(t, length), meta)
         == Got(Ok(length), SetLoopLength(t, length), [])
  {
  }

  /** With no positive override and nothing loaded yet, the getters return
      the tag's value when it fits an Int32; a numeral outside that range is
      an OverflowException and anything else a FormatException. */
  lemma TagValueUsed(t: Track, meta: Metadata)
    requires t.sampleLoopStart <= 0 && t.loadedLoopStart <= 0 && !t.attemptedLoopStartRead
    requires t.sampleLoopLength <= 0 && t.loadedLoopLength <= 0 && !t.attemptedLoopLengthRead
    ensures ReadTag(meta, LoopStartTag).Int? && IsInt32(ReadTag(meta, LoopStartTag).n) ==>
              GetLoopStart(t, meta).result == Ok(ReadTag(meta, LoopStartTag).n)
    ensures ReadTag(meta, LoopStartTag).Int? && !IsInt32(ReadTag(meta, LoopStartTag).n) ==>
              GetLoopStart(t, meta).result == Err(OverflowException)
    ensures ReadTag(meta, LoopStartTag).Malformed? ==>
              GetLoopStart(t, meta).result == Err(FormatException)
    ensures ReadTag(meta, LoopLengthTag).Int? && IsInt32(ReadTag(meta, LoopLengthTag).n) ==>
              GetLoopLength(t, meta).result == Ok(ReadTag(meta, LoopLengthTag).n)
    ensures ReadTag(meta, LoopLengthTag).Int? && !IsInt32(ReadTag(meta, LoopLengthTag).n) ==>
              GetLoopLength(t, meta).result == Err(OverflowException)
    ensures ReadTag(meta, LoopLengthTag).Malformed? ==>
              GetLoopLength(t, meta).result == Err(FormatException)
  {
  }

  /** Each tag is read at most once: a second get reads nothing, leaves the
      track alone and repeats a successful first answer. */
  lemma ReadAtMostOnce(t: Track, meta: Metadata)
    ensures var g1 := GetLoopStart(t, meta);
            var g2 := GetLoopStart(g1.track, meta);
            g2.tagsRead == [] && g2.track == g1.track && (g1.result.Ok? ==> g2.result == g1.result)
    ensures var g1 := GetLoopLength(t, meta);
            var g2 := GetLoopLength(g1.track, meta);
            g2.tagsRead == [] && g2.track == g1.track && (g1.result.Ok? ==> g2.result == g1.result)
  {
  }

  /** A tag that fails to parse raises only on the get that reads it: the
      read is recorded first, so the next get answers with the stale loaded
      value. */
  lemma MalformedStartReportedOnce(t: Track, meta: Metadata)
    requires !StartResolved(t) && ParseFails(ReadTag(meta, LoopStartTag))
    ensures GetLoopStart(t, meta).result == Err(ParseTag(ReadTag(meta, LoopStartTag)).error)
    ensures GetLoopStart(GetLoopStart(t, meta).track, meta).result == Ok(t.loadedLoopStart)
    ensures t.loadedLoopStart <= 0
  {
  }

  /** Missing tags: loop start defaults to 0, loop length to what is left of
      the track after the loop start, which is never negative and makes the
      two add up to the track's length whenever the start lies inside it. */
  lemma MissingTagDefaults(t: Track, meta: Metadata)
    requires !StartResolved(t) && !LengthResolved(t)
    requires ReadTag(meta, LoopStartTag) == Empty && ReadTag(meta, LoopLengthTag) == Empty
    ensures GetLoopStart(t, meta).result == Ok(0)
    ensures GetLoopLength(t, meta).result == Ok(t.clip.samples)
  {
  }

  lemma MissingLengthTagFillsTrack(t: Track, meta: Metadata)
    requires !LengthResolved(t) && ReadTag(meta, LoopLengthTag) == Empty
    requires GetLoopStart(t, meta).result.Ok?
    ensures var ls := GetLoopStart(t, meta).result.value;
            var g := GetLoopLength(t, meta);
            && g.result.Ok?
            && g.result.value >= 0
            && (ls <= t.clip.samples ==> ls + g.result.value == t.clip.samples)
            && (ls > t.clip.samples ==> g.result.value == 0)
  {
    // The getter calls LoopStart on the track with only the length's
    // attempted flag changed, which answers exactly as on `t`.
    var read := t.(attemptedLoopLengthRead := true);
    assert GetLoopStart(read, meta).result == GetLoopStart(t, meta).result;
  }

  /** The ratio between the clip's frequency and the file's original one; 1
      when the original is unknown. Float rounding is not modelled. */
  function FrequencyRatio(frequency: int, originalFrequency: int): (r: real)
    ensures originalFrequency <= 0 ==> r == 1.0
    ensures originalFrequency > 0 ==> r * originalFrequency as real == frequency as real
  {
    if originalFrequency > 0 then frequency as real / originalFrequency as real else 1.0
  }

  /** The ratio clip creation scales the loop points by: 1 unless the track
      compensates for the import's frequency change. */
  function UsedRatio(t: Track, meta: Metadata): (r: real)
    ensures !t.compensateForFrequency ==> r == 1.0
    ensures meta.originalFrequency <= 0 ==> r == 1.0
    ensures t.compensateForFrequency && meta.originalFrequency == t.clip.frequency ==> r == 1.0
    ensures t.compensateForFrequency && meta.originalFrequency > 0 ==>
              r * meta.originalFrequency as real == t.clip.frequency as real
  {
    if t.compensateForFrequency then FrequencyRatio(t.clip.frequency, meta.originalFrequency) else 1.0
  }

  /** Convert.ToInt32 of a float: round to the nearest integer, ties to even.
      The float's own rounding and the Int32 range check are not modelled. */
  function RoundToInt(x: real): (r: int)
    ensures r as real - 0.5 <= x <= r as real + 0.5
    ensures x == x.Floor as real ==> r == x.Floor
    ensures x - x.Floor as real == 0.5 ==> r % 2 == 0
  {
    var f := x.Floor;
    var frac := x - f as real;
    if frac < 0.5 then f
    else if frac > 0.5 then f + 1
    else if f % 2 == 0 then f
    else f + 1
  }

  /** The clip data of the intro and loop clips as CreateAndCacheClips computes
      them from the resolved loop points: frame counts and the interleaved
      sample range each copies from. */
  datatype Split = Split(
    introFrames: int,     // introLength
    introCopied: int,     // the intro slice's length, in interleaved samples
    loopFrames: int,      // loopLengthSampleCount
    loopOffset: int,      // loopStartSampleCount, in interleaved samples
    loopCopied: int)      // the loop slice's length, in interleaved samples

  /** The integer arithmetic of the split for loop points `ls`, `ll`, a clip
      of `n` frames of `c` channels, and frequency ratio `ratio`. */
  function SplitOf(ls: int, ll: int, n: nat, c: nat, ratio: real): (s: Split)
    ensures ratio == 1.0 ==> s.introFrames == Max(1, ls) >= 1
    ensures ratio == 1.0 ==> s.loopFrames == Min(n - 1, Max(1, ll))
    ensures ratio == 1.0 ==> s.loopOffset == Max(0, ls) * c
    ensures s.introCopied == s.introFrames * c
    ensures s.loopCopied == Min(s.loopFrames * c, n * c - s.loopOffset)
    ensures s.loopCopied <= n * c - s.loopOffset
    ensures s.loopCopied <= s.loopFrames * c
  {
    var loopOffset := RoundToInt((Max(0, ls) * c) as real * ratio);
    var loopFrames := RoundToInt(Min(n - 1, Max(1, ll)) as real * ratio);
    var introFrames := RoundToInt(Max(1, ls) as real * ratio);
    Split(introFrames, introFrames * c, loopFrames, loopOffset, Min(loopFrames * c, n * c - loopOffset))
  }

  /** At ratio 1 the loop clip holds between 1 and n-1 frames once the
      clip has at least two, and the loop slice stays inside the buffer
      whenever the loop start does. */
  lemma UnitRatioSplitBounds(ls: int, ll: int, n: nat, c: nat)
    ensures var s := SplitOf(ls, ll, n, c, 1.0);
            && (n >= 2 ==> 1 <= s.loopFrames <= n - 1)
            && (Max(0, ls) <= n ==> 0 <= s.loopOffset && s.loopOffset + s.loopCopied <= n * c)
            && (Max(0, ls) <= n && n >= 1 ==> s.loopCopied >= 0)
  {
    var s := SplitOf(ls, ll, n, c, 1.0);
    if Max(0, ls) <= n {
      assert s.loopOffset <= n * c by {
        MulMonotone(Max(0, ls), n, c);
      }
    }
    if Max(0, ls) <= n && n >= 1 {
      assert s.loopFrames >= 0;
      assert s.loopFrames * c >= 0 by { MulNonNegative(s.loopFrames, c); }
    }
  }

  lemma MulMonotone(a: int, b: int, c: nat)
    requires a <= b
    ensures a * c <= b * c
  {
  }

  lemma MulStrict(a: int, b: int, c: nat)
    requires a < b && c > 0
    ensures a * c < b * c
  {
  }

  lemma MulNonNegative(a: int, c: nat)
    requires a >= 0
    ensures a * c >= 0
  {
  }

  /** The loop points clip creation works from. */
  datatype LoopPoints = LoopPoints(start: int, length: int)

  /** The getter calls of CreateAndCacheClips, in the order its expressions
      make them: LoopStart, LoopLength, then LoopStart again for the intro
      length. The third call always repeats the first one's answer, since
      LoopStart is resolved by then. */
  function ResolveLoopPoints(t: Track, meta: Metadata): (g: Got<LoopPoints>)
    ensures g.result.Ok? ==> StartResolved(g.track) && LengthResolved(g.track)
    ensures g.result.Ok? ==> g.result.value == LoopPoints(CachedLoopStart(g.track), CachedLoopLength(g.track))
    ensures g.result.Ok? <==> (GetLoopStart(t, meta).result.Ok?
                               && GetLoopLength(GetLoopStart(t, meta).track, meta).result.Ok?)
    ensures g.result.Ok? ==> g.result == Ok(LoopPoints(GetLoopStart(t, meta).result.value,
                                                      GetLoopLength(GetLoopStart(t, meta).track, meta).result.value))
    ensures g.result.Err? ==> g.result.error == FormatException || g.result.error == OverflowException
    ensures StartResolved(t) && LengthResolved(t) ==> g.tagsRead == [] && g.track == t
    // no tag is read twice
    ensures forall i, j :: 0 <= i < j < |g.tagsRead| ==> g.tagsRead[i] != g.tagsRead[j]
    // only the two loop-point caches may change
    ensures g.track == t.(loadedLoopStart := g.track.loadedLoopStart,
                          attemptedLoopStartRead := g.track.attemptedLoopStartRead,
                          loadedLoopLength := g.track.loadedLoopLength,
                          attemptedLoopLengthRead := g.track.attemptedLoopLengthRead)
  {
    var g1 := GetLoopStart(t, meta);
    match g1.result
    case Err(e) => Got(Err(e), g1.track, g1.tagsRead)
    case Ok(ls) =>
      var g2 := GetLoopLength(g1.track, meta);
      match g2.result
      case Err(e) => Got(Err(e), g2.track, g1.tagsRead + g2.tagsRead)
      case Ok(ll) =>
        var g3 := GetLoopStart(g2.track, meta);
        match g3.result
        case Err(e) => Got(Err(e), g3.track, g1.tagsRead + g2.tagsRead + g3.tagsRead)
        case Ok(_) => Got(Ok(LoopPoints(ls, ll)), g3.track, g1.tagsRead + g2.tagsRead + g3.tagsRead)
  }

  /** The slicing half of CreateAndCacheClips for resolved loop points: create
      the intro clip and fill it from the start of the buffer, then create the
      loop clip and fill it from the loop start. A failing slice leaves the
      clips created so far in place, without data. */
  function CutClips(t: Track, p: LoopPoints, ratio: real): (g: Got<()>)
    ensures g.tagsRead == []
    ensures var s := SplitOf(p.start, p.length, t.clip.samples, t.clip.channels, ratio);
            g.result.Ok? <==> (EnsoHelpers.SliceFits(|t.clip.data|, 0, s.introCopied)
                               && EnsoHelpers.SliceFits(|t.clip.data|, s.loopOffset, s.loopCopied))
    ensures g.result.Ok? ==>
              var s := SplitOf(p.start, p.length, t.clip.samples, t.clip.channels, ratio);
              && g.track.introClip.Some? && g.track.loopClip.Some?
              && g.track.introClip.value.samples == s.introFrames
              && g.track.loopClip.value.samples == s.loopFrames
              && g.track.introClip.value.written == Some(t.clip.data[..s.introCopied])
              && g.track.loopClip.value.written
                   == Some(t.clip.data[s.loopOffset..s.loopOffset + s.loopCopied])
    // only the two clips may change
    ensures g.track == t.(introClip := g.track.introClip, loopClip := g.track.loopClip)
  {
    var c := t.clip.channels;
    var s := SplitOf(p.start, p.length, t.clip.samples, c, ratio);
    var intro := CreatedClip(s.introFrames, c, t.clip.frequency, None);
    var withIntro := t.(introClip := Some(intro));
    match EnsoHelpers.Slice(t.clip.data, 0, s.introCopied)
    case Err(e) => Got(Err(e), withIntro, [])
    case Ok(introData) =>
      var loop := CreatedClip(s.loopFrames, c, t.clip.frequency, None);
      var withLoop := withIntro.(introClip := Some(intro.(written := Some(introData))),
                                 loopClip := Some(loop));
      match EnsoHelpers.Slice(t.clip.data, s.loopOffset, s.loopCopied)
      case Err(e) => Got(Err(e), withLoop, [])
      case Ok(loopData) =>
        Got(Ok(()), withLoop.(loopClip := Some(loop.(written := Some(loopData)))), [])
  }

  /** CreateAndCacheClips: pick the frequency ratio, resolve the loop points,
      cut the clips. Any exception is rethrown after the state changes made
      so far. */
  function CreateAndCacheClips(t: Track, meta: Metadata): (g: Got<()>)
    ensures g.result.Ok? ==> StartResolved(g.track) && LengthResolved(g.track)
    ensures g.result.Ok? ==>
              var s := SplitOf(CachedLoopStart(g.track), CachedLoopLength(g.track),
                               t.clip.samples, t.clip.channels, UsedRatio(t, meta));
              && g.track.introClip.Some? && g.track.loopClip.Some?
              && g.track.introClip.value.samples == s.introFrames
              && g.track.loopClip.value.samples == s.loopFrames
              && EnsoHelpers.SliceFits(|t.clip.data|, 0, s.introCopied)
              && EnsoHelpers.SliceFits(|t.clip.data|, s.loopOffset, s.loopCopied)
              && g.track.introClip.value.written == Some(t.clip.data[..s.introCopied])
              && g.track.loopClip.value.written
                   == Some(t.clip.data[s.loopOffset..s.loopOffset + s.loopCopied])
    ensures ResolveLoopPoints(t, meta).result.Err? ==>
              g.result.Err? && g.result.error == ResolveLoopPoints(t, meta).result.error
    // the clips are cut at the loop points the getters resolve, and the
    // tags are read only by that resolution
    ensures ResolveLoopPoints(t, meta).result.Ok? ==>
              StartResolved(g.track) && LengthResolved(g.track)
              && LoopPoints(CachedLoopStart(g.track), CachedLoopLength(g.track))
                 == ResolveLoopPoints(t, meta).result.value
    ensures g.tagsRead == ResolveLoopPoints(t, meta).tagsRead
    // the clip, name and overrides are left alone
    ensures g.track.clip == t.clip && g.track.name == t.name
    ensures g.track.sampleLoopStart == t.sampleLoopStart && g.track.sampleLoopLength == t.sampleLoopLength
  {
    var ratio := UsedRatio(t, meta);
    var r := ResolveLoopPoints(t, meta);
    match r.result
    case Err(e) => Got(Err(e), r.track, r.tagsRead)
    case Ok(p) =>
      var cut := CutClips(r.track, p, ratio);
      assert r.track.clip == t.clip;
      assert StartResolved(cut.track) && CachedLoopStart(cut.track) == p.start;
      assert LengthResolved(cut.track) && CachedLoopLength(cut.track) == p.length;
      Got(cut.result, cut.track, r.tagsRead)
  }

  /** At ratio 1 and with loop points that resolve, creation succeeds exactly
      when the intro fits in the clip: max(1, LoopStart) <= samples (for a
      clip with at least one channel). The loop slice then always fits. */
  lemma CreateSucceedsIff(t: Track, meta: Metadata)
    requires UsedRatio(t, meta) == 1.0 && t.clip.channels > 0
    requires ResolveLoopPoints(t, meta).result.Ok?
    ensures var p := ResolveLoopPoints(t, meta).result.value;
            CreateAndCacheClips(t, meta).result.Ok? <==> Max(1, p.start) <= t.clip.samples
  {
    var n := t.clip.samples;
    var c := t.clip.channels;
    var r := ResolveLoopPoints(t, meta);
    var p := r.result.value;
    assert r.track.clip == t.clip;
    var s := SplitOf(p.start, p.length, n, c, 1.0);
    if Max(1, p.start) <= n {
      MulMonotone(Max(1, p.start), n, c);
      UnitRatioSplitBounds(p.start, p.length, n, c);
    } else {
      MulStrict(n, Max(1, p.start), c);
    }
  }

  /** The loop points the clips were cut at, read back without touching
      metadata after a successful creation. */
  lemma CreatedTrackIsResolved(t: Track, meta: Metadata, meta': Metadata)
    ensures var r := CreateAndCacheClips(t, meta).track;
            CreateAndCacheClips(t, meta).result.Ok? ==>
            && GetLoopStart(r, meta').tagsRead == [] && GetLoopStart(r, meta').track == r
            && GetLoopLength(r, meta').tagsRead == [] && GetLoopLength(r, meta').track == r
  {
  }

  /** LengthInSamples: the intro clip's frames plus the loop clip's; reading
      it before the clips exist dereferences null. */
  function LengthInSamples(t: Track): (r: Result<int>)
    ensures r.Ok? <==> t.introClip.Some? && t.loopClip.Some?
    ensures r.Err? ==> r.error == NullReferenceException
    ensures r.Ok? ==> r.value == t.introClip.value.samples + t.loopClip.value.samples
  {
    match (t.introClip, t.loopClip)
    case (Some(intro), Some(loop)) => Ok(intro.samples + loop.samples)
    case _ => Err(NullReferenceException)
  }

  /** After a successful creation at ratio 1, the track's length is
      max(1, LoopStart) + min(samples - 1, max(1, LoopLength)). */
  lemma LengthAtUnitRatio(t: Track, meta: Metadata)
    requires UsedRatio(t, meta) == 1.0
    requires CreateAndCacheClips(t, meta).result.Ok?
    ensures var r := CreateAndCacheClips(t, meta).track;
            LengthInSamples(r)
              == Ok(Max(1, CachedLoopStart(r)) + Min(t.clip.samples - 1, Max(1, CachedLoopLength(r))))
  {
  }

  /** When the loop region is the tail of the track, the split covers the
      track exactly: a loop start of 0 trades one intro frame for one loop
      frame. */
  lemma SplitCoversTrack(n: int, ls: int, ll: int)
    requires 0 <= ls < n && ls + ll == n
    ensures Max(1, ls) + Min(n - 1, Max(1, ll)) == n
  {
  }

  /** A new track whose file has neither tag is split into clips whose frames
      add up to the whole clip. */
  lemma UntaggedTrackLength(name: string, clip: AudioClip, meta: Metadata)
    requires clip.samples >= 1 && clip.channels >= 1
    requires ReadTag(meta, LoopStartTag) == Empty && ReadTag(meta, LoopLengthTag) == Empty
    requires meta.originalFrequency <= 0 || meta.originalFrequency == clip.frequency
    ensures CreateAndCacheClips(NewTrack(name, clip), meta).result.Ok?
    ensures LengthInSamples(CreateAndCacheClips(NewTrack(name, clip), meta).track) == Ok(clip.samples)
  {
    var t := NewTrack(name, clip);
    MissingTagDefaults(t, meta);
    CreateSucceedsIff(t, meta);
    LengthAtUnitRatio(t, meta);
    SplitCoversTrack(clip.samples, 0, clip.samples);
  }

  /** SecondsToSamples: the rounded sample count of `time`, capped at the
      track's length. */
  function SecondsToSamples(t: Track, time: real): (r: Result<int>)
    ensures r.Ok? <==> LengthInSamples(t).Ok?
    ensures r.Ok? ==> r.value <= LengthInSamples(t).value
    ensures r.Ok? ==> r.value == LengthInSamples(t).value || r.value == RoundToInt(time * t.clip.frequency as real)
    ensures r.Ok? && RoundToInt(time * t.clip.frequency as real) <= LengthInSamples(t).value ==>
              r.value == RoundToInt(time * t.clip.frequency as real)
  {
    match LengthInSamples(t)
    case Err(e) => Err(e)
    case Ok(length) => Ok(Min(length, RoundToInt(time * t.clip.frequency as real)))
  }

  /** LengthInSeconds: each clip's length is its frames over the frequency. */
  function LengthInSeconds(t: Track): (r: Result<real>)
    ensures r.Ok? <==> t.introClip.Some? && t.loopClip.Some?
    ensures r.Ok? ==> r.value * t.clip.frequency as real == LengthInSamples(t).value as real
  {
    match (t.introClip, t.loopClip)
    case (Some(intro), Some(loop)) =>
      Ok(intro.samples as real / t.clip.frequency as real + loop.samples as real / t.clip.frequency as real)
    case _ => Err(NullReferenceException)
  }

  /** SamplesToSeconds: `samples` in seconds, capped at the track's length. */
  function SamplesToSeconds(t: Track, samples: int): (r: Result<real>)
    ensures r.Ok? <==> LengthInSeconds(t).Ok?
    ensures r.Ok? ==> r.value <= LengthInSeconds(t).value
    ensures r.Ok? ==> r.value <= samples as real / t.clip.frequency as real
    ensures r.Ok? ==> r.value == LengthInSeconds(t).value || r.value * t.clip.frequency as real == samples as real
  {
    match LengthInSeconds(t)
    case Err(e) => Err(e)
    case Ok(length) =>
      var s := samples as real / t.clip.frequency as real;
      Ok(if length <= s then length else s)
  }
}

=== FILE: speaker.dfy ===
/** The two audio voices of one speaker module and the scheduling arithmetic
    that hands playback from one to the other at the loop end
    (Core/Speaker.cs). The audio clock is a parameter; each voice is a record
    of what was last asked of its audio source. */
module Speaker {
  import opened Errors

  type Hz = f: int | f > 0 witness 1

  /** What a speaker reads from the playing track: its name and its loop
      points as the track's getters answer them once resolved, in samples. */
  datatype TrackInfo = TrackInfo(name: string, loopStart: int, loopLength: int, frequency: Hz)

  /** One audio source: its clip, whether playback was requested and not
      stopped, whether it is paused, the sample it starts from, its scheduled
      start and end on the audio clock, and its volume. */
  datatype Voice = Voice(
    clip: Option<TrackInfo>,
    active: bool,
    paused: bool,
    startSample: int,
    scheduledStart: real,
    scheduledEnd: real,
    volume: real)

  /** A new audio source: no clip, stopped, full volume. */
  const IdleVoice: Voice := Voice(None, false, false, 0, 0.0, 0.0, 1.0)

  /** AudioSource.isPlaying at clock time `now`: requested, not paused and
      not past its scheduled end. */
  predicate IsPlaying(v: Voice, now: real) {
    v.active && !v.paused && now < v.scheduledEnd
  }

  /** Which speaker of the pair; each one's NextSpeaker is the other. */
  datatype Role = Primary | Secondary {
    function Other(): (r: Role)
      ensures r != this
    {
      if Primary? then Secondary else Primary
    }
  }

  datatype Speakers = Speakers(primary: Voice, secondary: Voice) {
    function Get(role: Role): Voice {
      if role.Primary? then primary else secondary
    }

    function Set(role: Role, v: Voice): (r: Speakers)
      ensures r.Get(role) == v && r.Get(role.Other()) == Get(role.Other())
    {
      if role.Primary? then this.(primary := v) else this.(secondary := v)
    }
  }

  const NewSpeakers: Speakers := Speakers(IdleVoice, IdleVoice)

  /** RelativeLoopStart: the loop start in seconds into the track. */
  function RelativeLoopStart(t: TrackInfo): (r: real)
    ensures r * t.frequency as real == t.loopStart as real
  {
    t.loopStart as real / t.frequency as real
  }

  /** LoopLength: the loop's duration in seconds. */
  function LoopSeconds(t: TrackInfo): (r: real)
    ensures r * t.frequency as real == t.loopLength as real
  {
    t.loopLength as real / t.frequency as real
  }

  /** AbsoluteLoopEnd: when the loop would end if the track had started at
      clock time `now`. */
  function AbsoluteLoopEnd(t: TrackInfo, now: real): (r: real)
    ensures (r - now) * t.frequency as real == (t.loopStart + t.loopLength) as real
  {
    now + RelativeLoopStart(t) + LoopSeconds(t)
  }

  /** Stop: stop both voices of the pair and rewind them. */
  function Stop(s: Speakers): (r: Speakers)
    ensures forall role: Role, now: real :: !IsPlaying(r.Get(role), now)
    ensures r.primary.startSample == 0 && r.secondary.startSample == 0
    ensures r.primary.clip == s.primary.clip && r.secondary.clip == s.secondary.clip
    ensures r.primary.volume == s.primary.volume && r.secondary.volume == s.secondary.volume
  {
    Speakers(s.primary.(active := false, startSample := 0),
             s.secondary.(active := false, startSample := 0))
  }

  /** Pause and UnPause act on both voices; stopping and scheduling are
      untouched. */
  function Pause(s: Speakers): (r: Speakers)
    ensures forall role: Role, now: real :: !IsPlaying(r.Get(role), now)
    ensures r.primary.(paused := false) == s.primary.(paused := false)
    ensures r.secondary.(paused := false) == s.secondary.(paused := false)
  {
    Speakers(s.primary.(paused := true), s.secondary.(paused := true))
  }

  function UnPause(s: Speakers): (r: Speakers)
    ensures !r.primary.paused && !r.secondary.paused
    ensures r.primary.(paused := true) == s.primary.(paused := true)
    ensures r.secondary.(paused := true) == s.secondary.(paused := true)
  {
    Speakers(s.primary.(paused := false), s.secondary.(paused := false))
  }

  /** SetVolume sets this speaker's own voice only. */
  function SetVolume(s: Speakers, role: Role, volume: real): (r: Speakers)
    ensures r.Get(role).volume == volume
    ensures r.Get(role).(volume := s.Get(role).volume) == s.Get(role)
    ensures r.Get(role.Other()) == s.Get(role.Other())
  {
    s.Set(role, s.Get(role).(volume := volume))
  }

  /** Play: stop and rewind both voices, put the track on both, and schedule
      this speaker's voice from `now` to the loop end. */
  function Play(s: Speakers, role: Role, t: TrackInfo, now: real): (r: Speakers)
    ensures r.primary.clip == Some(t) && r.secondary.clip == Some(t)
    ensures r.Get(role).active && !r.Get(role).paused && r.Get(role).startSample == 0
    ensures r.Get(role).scheduledStart == now
    ensures (r.Get(role).scheduledEnd - now) * t.frequency as real == (t.loopStart + t.loopLength) as real
    ensures !r.Get(role.Other()).active && r.Get(role.Other()).startSample == 0
    ensures r.primary.volume == s.primary.volume && r.secondary.volume == s.secondary.volume
  {
    var stopped := Stop(s);
    var loaded := Speakers(stopped.primary.(clip := Some(t)), stopped.secondary.(clip := Some(t)));
    var v := loaded.Get(role);
    loaded.Set(role, v.(active := true, paused := false, scheduledStart := now,
                        scheduledEnd := AbsoluteLoopEnd(t, now)))
  }

  /** The partner voice Update schedules: it starts at the loop start sample
      at `loopEnd - sourceTime` and plays for one loop. */
  function ReArm(next: Voice, t: TrackInfo, now: real, sourceTime: real): (r: Voice)
    ensures r.startSample == t.loopStart
    ensures r.active && !r.paused
    ensures (r.scheduledEnd - r.scheduledStart) * t.frequency as real == t.loopLength as real
    ensures r.clip == next.clip && r.volume == next.volume
  {
    var loopEnd := AbsoluteLoopEnd(t, now);
    next.(startSample := t.loopStart, active := true, paused := false,
          scheduledStart := loopEnd - sourceTime,
          scheduledEnd := loopEnd + LoopSeconds(t) - sourceTime)
  }

  /** Update of the speaker in `role`: when the module is playing and the
      partner voice is idle, re-arm the partner. `sourceTime` is this voice's
      AudioSource.time as the audio engine reports it. */
  function Update(s: Speakers, role: Role, moduleIsPlaying: bool, t: TrackInfo,
                  now: real, sourceTime: real): (r: Speakers)
    ensures r.Get(role) == s.Get(role)
    ensures r != s ==> moduleIsPlaying && !IsPlaying(s.Get(role.Other()), now)
    ensures moduleIsPlaying && !IsPlaying(s.Get(role.Other()), now) ==>
              r.Get(role.Other()) == ReArm(s.Get(role.Other()), t, now, sourceTime)
  {
    var next := s.Get(role.Other());
    if moduleIsPlaying && !IsPlaying(next, now) then s.Set(role.Other(), ReArm(next, t, now, sourceTime))
    else s
  }

  /** AudioSource.time of a voice that is playing on schedule: its start
      sample in seconds plus the clock time elapsed since its scheduled start. */
  function SourceTime(v: Voice, t: TrackInfo, now: real): real {
    v.startSample as real / t.frequency as real + (now - v.scheduledStart)
  }

  /** A voice whose window ends where the track's loop end falls on the
      timeline it was started at. */
  predicate OnLoopTimeline(v: Voice, t: TrackInfo) {
    v.scheduledEnd
      == v.scheduledStart - v.startSample as real / t.frequency as real + AbsoluteLoopEnd(t, 0.0)
  }

  /** The voice Play schedules is on the loop timeline. */
  lemma PlayStartsTimeline(s: Speakers, role: Role, t: TrackInfo, now: real)
    ensures OnLoopTimeline(Play(s, role, t, now).Get(role), t)
  {
  }

  /** Gapless hand-off: if this voice is on the loop timeline and reports
      AudioSource.time as playing on schedule, the partner it re-arms starts
      exactly when this voice ends, and is itself on the loop timeline. This
      covers the first hand-off (start sample 0) and every later one (start
      sample LoopStart). */
  lemma ReArmIsGapless(v: Voice, next: Voice, t: TrackInfo, now: real)
    requires OnLoopTimeline(v, t)
    ensures var r := ReArm(next, t, now, SourceTime(v, t, now));
            r.scheduledStart == v.scheduledEnd && OnLoopTimeline(r, t)
  {
  }

  /** The voice reached after `k` hand-offs from a voice started by Play at
      `t0`, each partner re-armed while its predecessor plays on schedule:
      `times[i]` is the clock time of the i-th re-arm. */
  function HandOffs(t: TrackInfo, v: Voice, times: seq<real>): Voice
    decreases |times|
  {
    if |times| == 0 then v
    else HandOffs(t, ReArm(v, t, times[0], SourceTime(v, t, times[0])), times[1..])
  }

  /** After any number of gapless hand-offs from a voice on the loop
      timeline, the active voice is still on it, and its window starts a
      whole number of loops after the first voice's end. */
  lemma {:induction false} HandOffsStayOnTimeline(t: TrackInfo, v: Voice, times: seq<real>)
    requires OnLoopTimeline(v, t)
    ensures OnLoopTimeline(HandOffs(t, v, times), t)
    ensures |times| > 0 ==>
              HandOffs(t, v, times).scheduledStart
                == v.scheduledEnd + (|times| - 1) as real * LoopSeconds(t)
    decreases |times|
  {
    if |times| > 0 {
      var w := ReArm(v, t, times[0], SourceTime(v, t, times[0]));
      ReArmIsGapless(v, v, t, times[0]);
      assert w.scheduledStart == v.scheduledEnd;
      assert w.scheduledEnd == v.scheduledEnd + LoopSeconds(t);
      HandOffsStayOnTimeline(t, w, times[1..]);
      if |times| > 1 {
        assert HandOffs(t, v, times).scheduledStart
            == w.scheduledEnd + (|times| - 2) as real * LoopSeconds(t);
      }
    }
  }

  /** From a Play at `t0`, the k-th hand-off (k >= 1) starts at
      t0 + (LoopStart + (k - 1) * LoopLength) / frequency + LoopLength / frequency:
      the intro plays once, then the loop repeats back to back. */
  lemma PlayThenHandOffs(s: Speakers, role: Role, t: TrackInfo, t0: real, times: seq<real>)
    requires |times| > 0
    ensures HandOffs(t, Play(s, role, t, t0).Get(role), times).scheduledStart
              == t0 + RelativeLoopStart(t) + |times| as real * LoopSeconds(t)
  {
    var v := Play(s, role, t, t0).Get(role);
    PlayStartsTimeline(s, role, t, t0);
    HandOffsStayOnTimeline(t, v, times);
  }
}

=== FILE: speaker_module.dfy ===
/** A speaker module: the pair of speakers playing one track, its playing
    flag, and the linear fade state machine advanced once per frame
    (Core/SpeakerModule.cs). */
module SpeakerModule {
  import opened Errors
  import Speaker

  datatype VolumeStatus = FadingIn | FadingOut | Static

  /** The fade state: status, time left, the fade's full duration, and
      whether to stop once a fade-out completes. */
  datatype Fade = Fade(status: VolumeStatus, timeLeft: real, maxTime: real, stopAfterFade: bool)

  /** What every reachable fade state satisfies: while time is left it is at
      most the full duration, so the ramp's ratio never divides by zero. */
  predicate FadeInvariant(f: Fade) {
    f.timeLeft > 0.0 ==> 0.0 < f.timeLeft <= f.maxTime
  }

  /** The outcome of one frame of the fade machine: the new fade state, the
      volume set on both speakers (if any), and whether to stop the module. */
  datatype FadeOutcome = FadeOutcome(fade: Fade, volume: Option<real>, stop: bool)

  /** The fade-in volume with `left` of `max` seconds to go: the share of
      the target that the time already spent is of the whole fade. */
  function RampIn(target: real, left: real, max: real): (v: real)
    requires 0.0 < left <= max
    ensures v * max == target * (max - left)
    ensures 0.0 <= target ==> 0.0 <= v <= target
  {
    var q := left / max;
    assert 0.0 < q <= 1.0 && q * max == left;
    target * (1.0 - q)
  }

  /** The fade-out volume with `left` of `max` seconds to go: the share of
      the target that the time left is of the whole fade. */
  function RampOut(target: real, left: real, max: real): (v: real)
    requires 0.0 < left <= max
    ensures v * max == target * left
    ensures 0.0 <= target ==> 0.0 <= v <= target
  {
    var q := left / max;
    assert 0.0 < q <= 1.0 && q * max == left;
    target * left / max
  }

  /** One frame of the fade machine for a fade towards `target`: count the
      time left down by `dt` while fading and positive, then either ramp the
      volume linearly or, once no time is left, snap to the end volume and go
      Static. `dt` is Time.deltaTime, which is never negative. */
  function FadeStep(f: Fade, dt: real, target: real): (r: FadeOutcome)
    requires FadeInvariant(f) && dt >= 0.0
    ensures FadeInvariant(r.fade)
    ensures f.status == Static ==> r == FadeOutcome(f, None, false)
    ensures r.fade.timeLeft <= f.timeLeft
    ensures r.fade.timeLeft != f.timeLeft ==> f.status != Static && f.timeLeft > 0.0
    ensures r.fade.maxTime == f.maxTime && r.fade.stopAfterFade == f.stopAfterFade
    ensures f.status != Static ==> r.volume.Some?
    ensures r.fade.status == Static || r.fade.status == f.status
    ensures r.fade.status != Static ==> r.fade.timeLeft > 0.0
    // the ramp: a fraction of the target growing (fade-in) or shrinking
    // (fade-out) with the time spent
    ensures r.fade.status == FadingIn ==>
              r.volume.value * r.fade.maxTime == target * (r.fade.maxTime - r.fade.timeLeft)
    ensures r.fade.status == FadingOut ==>
              r.volume.value * r.fade.maxTime == target * r.fade.timeLeft
    ensures 0.0 <= target && r.volume.Some? ==> 0.0 <= r.volume.value <= target
    // completion: snap to the end volume, go Static, maybe stop
    ensures f.status == FadingIn && r.fade.status == Static ==> r.volume == Some(target)
    ensures f.status == FadingOut && r.fade.status == Static ==> r.volume == Some(0.0)
    ensures r.stop <==> f.status == FadingOut && r.fade.status == Static && f.stopAfterFade
  {
    var left := if f.status != Static && f.timeLeft > 0.0 then f.timeLeft - dt else f.timeLeft;
    var counted := f.(timeLeft := left);
    match f.status
    case Static => FadeOutcome(f, None, false)
    case FadingIn =>
      if left <= 0.0 then FadeOutcome(counted.(status := Static), Some(target), false)
      else FadeOutcome(counted, Some(RampIn(target, left, f.maxTime)), false)
    case FadingOut =>
      if left <= 0.0 then FadeOutcome(counted.(status := Static), Some(0.0), f.stopAfterFade)
      else FadeOutcome(counted, Some(RampOut(target, left, f.maxTime)), false)
  }

  /** A speaker module: its two speakers, the track it plays, whether it is
      playing, the player's volume it fades towards, and its fade state. */
  datatype Module = Module(
    speakers: Speaker.Speakers,
    playingTrack: Option<Speaker.TrackInfo>,
    isPlaying: bool,
    playerVolume: real,
    fade: Fade)

  predicate IsFading(m: Module) {
    m.fade.status != Static
  }

  /** Both speakers play at `volume`. */
  predicate VolumeIs(m: Module, volume: real) {
    m.speakers.primary.volume == volume && m.speakers.secondary.volume == volume
  }

  /** A module as Awake leaves it: idle speakers, nothing playing, Static. */
  function NewModule(): (m: Module)
    ensures !IsFading(m) && !m.isPlaying && m.playingTrack == None
    ensures FadeInvariant(m.fade)
  {
    Module(Speaker.NewSpeakers, None, false, 0.0, Fade(Static, 0.0, 0.0, false))
  }

  /** SetVolume: set both speakers' volume; nothing else changes. */
  function SetVolume(m: Module, volume: real): (r: Module)
    ensures VolumeIs(r, volume)
    ensures r.(speakers := m.speakers) == m
    ensures r.speakers.primary.(volume := 0.0) == m.speakers.primary.(volume := 0.0)
    ensures r.speakers.secondary.(volume := 0.0) == m.speakers.secondary.(volume := 0.0)
  {
    var s := Speaker.SetVolume(m.speakers, Speaker.Primary, volume);
    m.(speakers := Speaker.SetVolume(s, Speaker.Secondary, volume))
  }

  /** SetPlayerVolume: only the stored player volume changes. */
  function SetPlayerVolume(m: Module, volume: real): (r: Module)
    ensures r.playerVolume == volume
    ensures r.(playerVolume := m.playerVolume) == m
  {
    m.(playerVolume := volume)
  }

  /** Play: mark playing, record the track, and start it on the primary
      speaker at clock time `now`. */
  function Play(m: Module, t: Speaker.TrackInfo, now: real): (r: Module)
    ensures r.isPlaying && r.playingTrack == Some(t)
    ensures r.fade == m.fade && r.playerVolume == m.playerVolume
    ensures r.speakers.primary.active && r.speakers.primary.scheduledStart == now
    ensures r.speakers.primary.clip == Some(t) && r.speakers.secondary.clip == Some(t)
    ensures !r.speakers.secondary.active
  {
    m.(isPlaying := true, playingTrack := Some(t),
       speakers := Speaker.Play(m.speakers, Speaker.Primary, t, now))
  }

  /** Stop: mark not playing and stop both speakers. */
  function Stop(m: Module): (r: Module)
    ensures !r.isPlaying
    ensures forall now: real :: !Speaker.IsPlaying(r.speakers.primary, now)
                             && !Speaker.IsPlaying(r.speakers.secondary, now)
    ensures r.fade == m.fade && r.playingTrack == m.playingTrack && r.playerVolume == m.playerVolume
  {
    m.(isPlaying := false, speakers := Speaker.Stop(Speaker.Stop(m.speakers)))
  }

  function Pause(m: Module): (r: Module)
    ensures !r.isPlaying
    ensures r.speakers.primary.paused && r.speakers.secondary.paused
    ensures r.fade == m.fade && r.playingTrack == m.playingTrack && r.playerVolume == m.playerVolume
  {
    m.(isPlaying := false, speakers := Speaker.Pause(Speaker.Pause(m.speakers)))
  }

  function UnPause(m: Module): (r: Module)
    ensures r.isPlaying
    ensures !r.speakers.primary.paused && !r.speakers.secondary.paused
    ensures r.fade == m.fade && r.playingTrack == m.playingTrack && r.playerVolume == m.playerVolume
  {
    m.(isPlaying := true, speakers := Speaker.UnPause(Speaker.UnPause(m.speakers)))
  }

  /** Pausing and unpausing gives back the module as it was, apart from the
      pause flags having been cleared. */
  lemma PauseUnPause(m: Module)
    requires m.isPlaying && !m.speakers.primary.paused && !m.speakers.secondary.paused
    ensures UnPause(Pause(m)) == m
  {
  }

  /** FadeOut: start a fade-out of `time` seconds, recording whether to stop
      once it completes. */
  function FadeOut(m: Module, time: real, stopAfterFade: bool): (r: Module)
    ensures r.fade.status == FadingOut && IsFading(r)
    ensures r.fade.timeLeft == time && r.fade.maxTime == time
    ensures r.fade.stopAfterFade == stopAfterFade
    ensures FadeInvariant(r.fade)
    ensures r.(fade := m.fade) == m
  {
    m.(fade := Fade(FadingOut, time, time, stopAfterFade))
  }

  /** FadeIn: start a fade-in of `time` seconds; the stop flag of an earlier
      fade-out is left as it was. */
  function FadeIn(m: Module, time: real): (r: Module)
    ensures r.fade.status == FadingIn && IsFading(r)
    ensures r.fade.timeLeft == time && r.fade.maxTime == time
    ensures r.fade.stopAfterFade == m.fade.stopAfterFade
    ensures FadeInvariant(r.fade)
    ensures r.(fade := m.fade) == m
  {
    m.(fade := Fade(FadingIn, time, time, m.fade.stopAfterFade))
  }

  /** Apply one frame's fade outcome: set the volume, then stop if asked. */
  function ApplyFade(m: Module, o: FadeOutcome): (r: Module)
    ensures r.fade == o.fade && r.playingTrack == m.playingTrack && r.playerVolume == m.playerVolume
    ensures o.volume.Some? ==> VolumeIs(r, o.volume.value)
    ensures o.volume.None? ==> r.speakers == m.speakers || o.stop
    ensures o.stop ==> !r.isPlaying
    ensures !o.stop ==> r.isPlaying == m.isPlaying
  {
    var withVolume := if o.volume.Some? then SetVolume(m.(fade := o.fade), o.volume.value)
                      else m.(fade := o.fade);
    if o.stop then Stop(withVolume) else withVolume
  }

  /** The module's Update: one frame of the fade machine, fading towards the
      stored player volume. */
  function Tick(m: Module, dt: real): (r: Module)
    requires FadeInvariant(m.fade) && dt >= 0.0
    ensures FadeInvariant(r.fade)
    ensures !IsFading(m) ==> r == m
    ensures r.playingTrack == m.playingTrack && r.playerVolume == m.playerVolume
    ensures r.fade.timeLeft <= m.fade.timeLeft
    ensures 0.0 <= m.playerVolume && IsFading(m) ==> exists v :: VolumeIs(r, v) && 0.0 <= v <= m.playerVolume
    ensures m.fade.status == FadingIn && !IsFading(r) ==> VolumeIs(r, m.playerVolume) && r.isPlaying == m.isPlaying
    ensures m.fade.status == FadingOut && !IsFading(r) ==> VolumeIs(r, 0.0)
    ensures m.fade.status == FadingOut && !IsFading(r) && m.fade.stopAfterFade ==> !r.isPlaying
    ensures !(m.fade.status == FadingOut && !IsFading(r) && m.fade.stopAfterFade) ==> r.isPlaying == m.isPlaying
  {
    ApplyFade(m, FadeStep(m.fade, dt, m.playerVolume))
  }

  /** A frame at least as long as the time left completes the fade. */
  lemma LongFrameCompletes(m: Module, dt: real)
    requires FadeInvariant(m.fade) && dt >= 0.0 && IsFading(m)
    requires dt >= m.fade.timeLeft
    ensures !IsFading(Tick(m, dt))
  {
  }

  /** During a fade-in the volume never goes down from one frame to the
      next, and during a fade-out it never goes up. */
  lemma RampIsMonotone(f: Fade, dt1: real, dt2: real, target: real)
    requires FadeInvariant(f) && dt1 >= 0.0 && dt2 >= 0.0 && target >= 0.0
    requires f.status != Static
    requires FadeStep(f, dt1, target).fade.status != Static
    ensures var o1 := FadeStep(f, dt1, target);
            var o2 := FadeStep(o1.fade, dt2, target);
            && (f.status == FadingIn ==> o1.volume.value <= o2.volume.value)
            && (f.status == FadingOut ==> o2.volume.value <= o1.volume.value)
  {
    var o1 := FadeStep(f, dt1, target);
    var max := f.maxTime;
    var l1 := f.timeLeft - dt1;
    assert o1.fade == f.(timeLeft := l1) && 0.0 < l1 <= max;
    var o2 := FadeStep(o1.fade, dt2, target);
    var l2 := l1 - dt2;
    if f.status == FadingIn {
      assert o1.volume == Some(RampIn(target, l1, max));
      if l2 > 0.0 {
        assert o2.volume == Some(RampIn(target, l2, max));
        RampInGrows(target, l1, l2, max);
      } else {
        assert o2.volume == Some(target);
      }
    } else {
      assert o1.volume == Some(RampOut(target, l1, max));
      if l2 > 0.0 {
        assert o2.volume == Some(RampOut(target, l2, max));
        RampOutShrinks(target, l1, l2, max);
      } else {
        assert o2.volume == Some(0.0);
      }
    }
  }

  /** Less time left means a louder fade-in and a quieter fade-out. */
  lemma RampInGrows(target: real, l1: real, l2: real, max: real)
    requires 0.0 < l2 <= l1 <= max && 0.0 <= target
    ensures RampIn(target, l1, max) <= RampIn(target, l2, max)
  {
    var a := RampIn(target, l1, max);
    var b := RampIn(target, l2, max);
    MulLeftMonotone(target, max - l1, max - l2);
    assert a * max <= b * max;
    DivideMonotone(a, b, max);
  }

  lemma RampOutShrinks(target: real, l1: real, l2: real, max: real)
    requires 0.0 < l2 <= l1 <= max && 0.0 <= target
    ensures RampOut(target, l2, max) <= RampOut(target, l1, max)
  {
    var a := RampOut(target, l1, max);
    var b := RampOut(target, l2, max);
    MulLeftMonotone(target, l2, l1);
    assert b * max <= a * max;
    DivideMonotone(a, b, max);
  }

  /** A fade-out and a fade-in of the same duration started together are
      complementary: after one frame of `dt` short of the end their
      volumes add up to the target. */
  lemma OppositeRampsSum(time: real, dt: real, target: real, stopOut: bool, stopIn: bool)
    requires 0.0 <= dt < time
    ensures var o := FadeStep(Fade(FadingOut, time, time, stopOut), dt, target);
            var i := FadeStep(Fade(FadingIn, time, time, stopIn), dt, target);
            && o.fade.status == FadingOut && i.fade.status == FadingIn
            && o.fade.timeLeft == time - dt && i.fade.timeLeft == time - dt
            && o.volume.value + i.volume.value == target
  {
    var o := FadeStep(Fade(FadingOut, time, time, stopOut), dt, target);
    var i := FadeStep(Fade(FadingIn, time, time, stopIn), dt, target);
    assert o.volume.value * time == target * (time - dt);
    assert i.volume.value * time == target * dt;
    assert (o.volume.value + i.volume.value) * time == target * time;
  }

  lemma MulLeftMonotone(k: real, a: real, b: real)
    requires 0.0 <= k && a <= b
    ensures k * a <= k * b
  {
  }

  /** Two values multiplied by the same positive duration compare as the
      products do. */
  lemma DivideMonotone(x: real, y: real, max: real)
    requires max > 0.0
    ensures x * max <= y * max ==> x <= y
    ensures y * max <= x * max ==> y <= x
  {
  }

  /** Speaker Update for the speaker in `role`, reading the module's playing
      flag and track. A module set playing by UnPause before any Play has no
      track, and the re-arm then dereferences null. */
  function UpdateSpeaker(m: Module, role: Speaker.Role, now: real, sourceTime: real): (r: Result<Module>)
    ensures r.Err? <==> m.isPlaying && m.playingTrack.None?
                        && !Speaker.IsPlaying(m.speakers.Get(role.Other()), now)
    ensures r.Err? ==> r.error == NullReferenceException
    ensures r.Ok? ==> r.value.(speakers := m.speakers) == m
    ensures r.Ok? ==> r.value.speakers.Get(role) == m.speakers.Get(role)
  {
    if m.isPlaying && !Speaker.IsPlaying(m.speakers.Get(role.Other()), now) then
      match m.playingTrack
      case None => Err(NullReferenceException)
      case Some(t) => Ok(m.(speakers := Speaker.Update(m.speakers, role, m.isPlaying, t, now, sourceTime)))
    else Ok(m)
  }

  /** A re-armed partner starts at the loop start and plays for one loop;
      a paused or stopped module re-arms nothing. */
  lemma UpdateSpeakerReArms(m: Module, role: Speaker.Role, now: real, sourceTime: real)
    requires m.playingTrack.Some?
    ensures var r := UpdateSpeaker(m, role, now, sourceTime);
            && r.Ok?
            && (!m.isPlaying ==> r.value == m)
            && (m.isPlaying && !Speaker.IsPlaying(m.speakers.Get(role.Other()), now) ==>
                  r.value.speakers.Get(role.Other()).startSample == m.playingTrack.value.loopStart)
  {
  }
}
